=== FILE: README.md ===
# Partition-table decoder

A model of the decoding core of a disk-image analyzer that reads a raw disk
image and reports its partition table. The analyzer reads the first sector
and classifies the disk as MBR, GPT or unknown. A boot signature `55 AA`
means MBR, or GPT when the first slot's type byte is `EE` (protective MBR).
Without the signature, the bytes `EFI PART` must follow at offset `0x200`
of that same first sector.

- MBR decoding: the four 16-byte slots at offset 446 become partition
  records. Empty slots (type `00` with start LBA 0) are skipped, and records
  are numbered by slot.
- GPT decoding: the header at byte offset `sector size` is decoded, then the
  entry array at `entries LBA × sector size`. Entries are read one entry
  size at a time. The walk stops at the first read shorter than 128 bytes
  and skips entries whose type GUID is all zero or whose first LBA is 0.
  The remaining entries are numbered consecutively.
- Type names: codes and GUIDs get their description from two static
  catalogs. Codes and GUIDs in neither catalog get an "unknown" label.
- Second decoder: a simpler MBR-only dumper (`dump_analyzer.py`) parses all
  four slots, including empty ones. It warns when the signature is missing.

The model is pure. An image is a `seq<Byte>`, and a seek followed by a read
is a clamped slice (`Bytes.Read`). The result of an analysis is a
`Result<DiskReport, Failure>`:

- `false` returned from `analyze` is an `Err`.
- The analyzer's catch-all turns every exception into `false`. The model
  covers two of these exceptions, which raise on some input whatever the
  environment:
  - `IndexFault`: an index past a short first sector;
  - `OffsetOverflow`: a read size or seek offset of 2^63 or more.
  Exceptions that depend on the environment are listed under "Left out".

Modules:

- `Results`: `Option` and `Result`.
- `Bytes`: clamped reads, little-endian fields and their encoder, hexadecimal
  text and its decoder.
- `Utf16`: UTF-16LE decoding with `errors='ignore'`, the encoder that is its
  partner, and NUL stripping.
- `HumanSize`: the unit `_bytes_to_human` chooses.
- `Catalog`: the two type catalogs as ordered lists of pairs with distinct
  keys, looked up like a dictionary.
- `GuidByteOrder`: how the catalog's GUID keys relate to GUIDs as GPT
  entries store them.
- `DiskAnalyzer`: detection, MBR and GPT decoding, and `analyze`.
- `DumpAnalyzer`: `parse_partition_entry` and `analyze_mbr`, and how they
  agree with `DiskAnalyzer`.

In these places the model follows what the code does:

- A protective MBR is classified as `Gpt`; there is no separate hybrid kind.
- MBR records are numbered slot + 1, so a skipped slot leaves a gap.
- The GPT signature is looked for at offset `0x200` of the first sector, not
  at byte offset `sector size`. With 512-byte sectors a disk without the
  `55 AA` signature is therefore never recognised
  (`DiskAnalyzer.Sector512WithoutSignatureIsUnrecognized`).
- A GPT header shorter than 92 bytes is not an error: the disk is reported
  as GPT with no partitions.
- The GPT name is always bytes 56..128, whatever the entry size.
- Nothing makes the start sector at most the end sector, and nothing makes
  the size positive. The lemmas state exactly when the order fails.
- The unknown MBR label is `Неизвестный (0xNN)`.
- GPT lookup compares the upper-case hexadecimal text of the raw entry
  bytes with keys that spell each GUID in its textual digit order. The
  catalog keeps those text keys. `Catalog.GptKeyBytes` gives the bytes each
  key spells, and `Catalog.GptTextLookupIsByteMatch` shows that the text
  comparison is byte-string equality with those bytes. `GuidByteOrder` shows the
  consequence: the EFI System type, as a GPT entry stores it (first three
  fields little-endian), is reported as unknown.

## Model

| member | source | states |
|---|---|---|
| Bytes.Read | disk_analyzer.py:230-231 | a seek and read returns at most `count` bytes; it returns exactly `count` iff the image holds them, and any bytes returned are the image's bytes at the offset |
| Bytes.ReadPastEnd | disk_analyzer.py:267-269 | a read running past the end returns the tail of the image, or nothing when it starts past the end |
| Bytes.LeBytesRoundTrip | disk_analyzer.py:181-182 | little-endian decoding inverts the encoder for every value that fits the width |
| Bytes.LeValueRoundTrip | disk_analyzer.py:181-182 | encoding a decoded field restores its bytes: the little-endian decoding is injective |
| Bytes.LeFieldOfEncoded | disk_analyzer.py:248-250 | a field written little-endian at an offset reads back as the value written |
| Bytes.UnHexOfHex | disk_analyzer.py:304 | hexlify output is hexadecimal text that decodes back to the original bytes, in either case |
| Bytes.HexOfUnHex | disk_analyzer.py:436 | every upper-case hexadecimal text is the upper-case hexlify of the bytes it spells |
| Bytes.HexInjective | disk_analyzer.py:436 | distinct byte strings have distinct hexadecimal text |
| Bytes.HexPrefix | disk_analyzer.py:451 | the first 2n digits of the text of some bytes are the text of their first n bytes |
| Utf16.Decode | disk_analyzer.py:281 | UTF-16LE decoding with errors ignored yields at most one character per code unit |
| Utf16.DecodeEncode | disk_analyzer.py:281 | the decoder loses nothing from well-formed text: decoding the encoding of any string gives the string back |
| Utf16.DecodeBasicPlane | disk_analyzer.py:281 | units outside the surrogate range decode one character per unit, with the unit's value |
| Utf16.StripNul | disk_analyzer.py:281 | strip('\x00') returns an infix of the text with only NULs cut off on either side, and it neither starts nor ends with NUL |
| Utf16.TrimLeadingNul | disk_analyzer.py:281 | the left strip removes a prefix made only of NULs and keeps a suffix not starting with NUL |
| Utf16.TrimTrailingNul | disk_analyzer.py:281 | the right strip removes a suffix made only of NULs and keeps a prefix not ending with NUL |
| HumanSize.UnitIndex | disk_analyzer.py:453-459 | the unit is the least one below PB in which the count is under 1024, or PB when there is none |
| HumanSize.UnitIndexMonotone | disk_analyzer.py:453-459 | a larger byte count never gets a smaller unit |
| HumanSize.UnitExamples | disk_analyzer.py:453-459 | 1536 bytes are shown in KB and 2^30 bytes in GB |
| Catalog.FindSpec | disk_analyzer.py:432 | dictionary lookup fails exactly for keys the catalog does not list, and what it finds is a listed pair |
| Catalog.FindListed | disk_analyzer.py:398-432 | with distinct keys every listed pair is found as written, so the ordered list behaves as the dictionary |
| Catalog.MbrKeysDistinct | disk_analyzer.py:398-431 | the MBR catalog lists no code twice |
| Catalog.MbrDescriptionsAreNotUnknownLabels | disk_analyzer.py:398-432 | no MBR catalog description can be mistaken for the unknown label |
| Catalog.MbrTypeNameKnownIff | disk_analyzer.py:396-432 | a code's label is a catalogued description iff the code is catalogued; otherwise it is `Неизвестный (0x` + two upper-case digits + `)` |
| Catalog.MbrTypeNameOfListed | disk_analyzer.py:398-432 | every catalogued code is described as the catalog lists it |
| Catalog.LinuxNativeCode | disk_analyzer.py:416 | code 83 is described as "Linux Native" |
| Catalog.MbrUnknownLabelIdentifiesCode | disk_analyzer.py:432 | two uncatalogued codes with the same label are the same code |
| Catalog.UnknownMbrLabelsDiffer | disk_analyzer.py:432 | distinct codes have distinct unknown labels |
| Catalog.GptKeysDistinct | disk_analyzer.py:438-449 | the GPT catalog lists no GUID text twice |
| Catalog.GptKeysAreUpperHex | disk_analyzer.py:439-448 | every GPT key is 32 upper-case hexadecimal digits, the text `hexlify(...).upper()` produces for 16 bytes |
| Catalog.GptKeyBytes | disk_analyzer.py:436-448 | the 16 bytes whose upper-case text is the i-th key |
| Catalog.GptDescriptionsAreNotUnknownLabels | disk_analyzer.py:438-451 | no GPT catalog description can be mistaken for the unknown label |
| Catalog.GptTypeNameKnownIff | disk_analyzer.py:434-451 | a GUID's label is a catalogued description iff the GUID's upper-case text is a catalogued key |
| Catalog.GptUnknownLabel | disk_analyzer.py:436-451 | a GUID whose text is not a key is labelled `Unknown GUID (` + the upper-case text of its first four bytes + `...)` |
| Catalog.FirstEightDigits | disk_analyzer.py:436-451 | the first eight digits of a GUID's text are the text of its first four bytes |
| Catalog.GptTypeNameOfListed | disk_analyzer.py:436-451 | the bytes each key spells are described as the catalog lists it |
| Catalog.GptTextLookupIsByteMatch | disk_analyzer.py:436-451 | a GUID's upper-case text is the i-th key iff the GUID is the bytes that key spells |
| Catalog.GptListedIffKeyBytes | disk_analyzer.py:436-451 | a GUID's text is catalogued iff the GUID is the bytes of some key |
| GuidByteOrder.StoredOrderInvolution | disk_analyzer.py:271 | the entry's raw type GUID holds the first three GUID fields little-endian; converting between text order and that order twice gives the GUID back |
| GuidByteOrder.EfiSystemFirstField | disk_analyzer.py:439 | the EFI System key's first field is C1 2A 73 28 in text order and 28 73 2A C1 as stored |
| GuidByteOrder.EfiSystemOnDiskIsUnknown | disk_analyzer.py:436-451 | the EFI System type GUID, stored as GPT entries store it, gets the unknown label `Unknown GUID (28732AC1...)` |
| GuidByteOrder.EfiSystemTextOrderIsKnown | disk_analyzer.py:439 | a GUID is described as "EFI System Partition" iff its bytes spell the key in textual digit order |
| DiskAnalyzer.DetectTableType | disk_analyzer.py:123-149 | detection raises iff the sector is too short for the bytes it indexes; otherwise MBR iff 55 AA and type byte not EE; GPT iff 55 AA with EE, or no 55 AA and "EFI PART" at 0x200; the boot-signature flag iff 55 AA |
| DiskAnalyzer.DetectionReadsOnlyMarkers | disk_analyzer.py:126-149 | detection of any two sectors of 512 bytes or more, whatever their lengths, depends only on bytes 450, 510, 511 and 512..520 |
| DiskAnalyzer.DecodeMbr | disk_analyzer.py:151-211 | at most four records |
| DiskAnalyzer.MbrNumbersIncrease | disk_analyzer.py:169-211 | the records are numbered within 1..4, in strictly increasing slot order |
| DiskAnalyzer.KeptSlots | disk_analyzer.py:169-185 | the slot loop from slot i keeps at most 4 - i slots: exactly the full, non-empty ones, in increasing order |
| DiskAnalyzer.MbrDecodedRecord | disk_analyzer.py:169-211 | every decoded record is the record of the kept slot its number names |
| DiskAnalyzer.MbrKeptSlotDecoded | disk_analyzer.py:169-211 | every kept slot's record is decoded |
| DiskAnalyzer.MbrSlotDecodedIffNotEmpty | disk_analyzer.py:184-185 | a slot of a full sector yields a record iff it is not type 00 with start LBA 0 |
| DiskAnalyzer.MbrRecordOfSlot | disk_analyzer.py:170-209 | the record of a kept slot: number slot + 1, type byte 4, start and count little-endian at 8 and 12, end start + count - 1, bytes count × sector size, active iff status 80, no GUID, name or attributes |
| DiskAnalyzer.MbrEndBeforeStartIffNoSectors | disk_analyzer.py:205 | an MBR record ends before it starts iff its sector count is 0 |
| DiskAnalyzer.MbrOnlyFirstSlot | disk_analyzer.py:169-211 | when only the first slot is kept, its record is the whole result |
| DiskAnalyzer.MbrSingleLinuxPartition | disk_analyzer.py:169-211 | one active Linux slot of 204800 sectors at LBA 2048, with the others empty, decodes to exactly one record numbered 1 and ending at 206847 |
| DiskAnalyzer.ParseGptHeader | disk_analyzer.py:233-250 | the header is absent iff fewer than 92 bytes were read; the entry LBA fits 64 bits, and the count and entry size fit 32 bits |
| DiskAnalyzer.ParseGptHeaderOfEncoded | disk_analyzer.py:248-250 | a header whose fields were written little-endian at 72, 80 and 84 reads them back |
| DiskAnalyzer.GptWalk | disk_analyzer.py:265-284 | the entry loop from entry i keeps at most the remaining entry count of entries, each read with at least 128 bytes and in use |
| DiskAnalyzer.DecodeGpt | disk_analyzer.py:229-323 | the decoded GPT partitions are numbered 1, 2, 3, … |
| DiskAnalyzer.FirstShortEntry | disk_analyzer.py:266-269 | reference: every read before this entry has at least 128 bytes, and this one is shorter unless the count is reached |
| DiskAnalyzer.UsedEntries | disk_analyzer.py:271-284 | reference list: only entries of the range that are read with at least 128 bytes and in use |
| DiskAnalyzer.SelectedIncreasing | disk_analyzer.py:270-284 | the reference list is in increasing entry order |
| DiskAnalyzer.SelectedComplete | disk_analyzer.py:270-284 | the reference list holds every entry of the range that is read with at least 128 bytes and in use |
| DiskAnalyzer.UsedEntriesTakes | disk_analyzer.py:270-284 | a used entry with a read of at least 128 bytes is kept first by both the loop and the reference list, and the loop stops at the same entry after it |
| DiskAnalyzer.UsedEntriesSkips | disk_analyzer.py:271-284 | an entry with a zero type GUID or first LBA 0 is kept by neither |
| DiskAnalyzer.GptWalkIsUsedEntries | disk_analyzer.py:265-284 | the entry loop keeps exactly the used entries before the first short read, in order |
| DiskAnalyzer.GptDecodeIsUsedEntries | disk_analyzer.py:229-323 | the decoded GPT partitions are the records, numbered 1, 2, … in order, of exactly the used entries before the first short read |
| DiskAnalyzer.GptShortHeaderYieldsNothing | disk_analyzer.py:233-235 | a header read shorter than 92 bytes yields no partitions |
| DiskAnalyzer.GptSmallEntrySizeYieldsNothing | disk_analyzer.py:267-269 | an entry size below 128 yields no partitions, whatever the entry count |
| DiskAnalyzer.GptAtMostEntryCount | disk_analyzer.py:266 | there are at most as many partitions as the declared entry count |
| DiskAnalyzer.EntryDataInside | disk_analyzer.py:259-267 | the first 128 bytes of an entry read with at least 128 bytes lie inside the image, at entries LBA × sector size + j × entry size |
| DiskAnalyzer.GptRecordAt | disk_analyzer.py:277-307 | a used entry's record carries the positive first LBA at +32, the last LBA at +40 and the attributes at +48; type code 0, never active |
| DiskAnalyzer.LbaRangeEntrySize | disk_analyzer.py:290-307 | a GPT record spans its first to last LBA: size in sectors last - first + 1 (not necessarily positive, and not positive iff last < first), size in bytes that times the sector size |
| DiskAnalyzer.GptRecordTextsAt | disk_analyzer.py:272-304 | a used entry has a non-zero type GUID; its record names that GUID's type and carries the unique GUID at +16 as lower-case hexadecimal |
| DiskAnalyzer.EntryNameReadsFirst128 | disk_analyzer.py:281 | the partition name depends on entry bytes 56..128 only, whatever the entry size |
| DiskAnalyzer.GptRecordFields | disk_analyzer.py:272-307 | the record of used entry j, field by field, read from the image at the entry's offset: first and last LBA, attributes, type description of the non-zero type GUID, unique GUID, name from bytes 56..128, and the sizes in sectors and bytes |
| DiskAnalyzer.GptRecordSize | disk_analyzer.py:290-300 | the record built from an entry has a non-positive size iff its last LBA is before its first |
| DiskAnalyzer.GptNonPositiveSizeIffLastBeforeFirst | disk_analyzer.py:290 | a decoded GPT partition has a non-positive size iff its last LBA is before its first |
| DiskAnalyzer.SizeInBytesIsProduct | disk_analyzer.py:195 | a record's size in bytes is its sector count times the sector size |
| DiskAnalyzer.Analyze | disk_analyzer.py:88-121 | an oversized sector size fails with an overflow; too small iff the image is shorter than one sector; on success the kind is not Unknown, the flag matches 55 AA, and the partitions are the MBR or GPT decoding the kind selects, the GPT entry seek having fit |
| DiskAnalyzer.Sector512WithoutSignatureIsUnrecognized | disk_analyzer.py:141-149 | with 512-byte sectors and no 55 AA, analyze always fails as unrecognised |
| DiskAnalyzer.AnalyzeShortSectorFaults | disk_analyzer.py:126 | with a sector size of 1 to 510 and an image of at least one sector, analyze fails with the index error at byte 510 |
| DiskAnalyzer.AnalyzeCases | disk_analyzer.py:97-106 | the outcome of analyze in each of the four detection cases, including the entry-seek overflow on GPT |
| DumpAnalyzer.ParsePartitionEntry | dump_analyzer.py:29-39 | parsing fails iff the entry is shorter than 16 bytes; start and count fit 32 bits |
| DumpAnalyzer.ParseEncodeSlot | dump_analyzer.py:29-39 | parsing the encoding of a record gives the record back |
| DumpAnalyzer.EncodeParsedSlot | dump_analyzer.py:29-39 | encoding a parsed entry restores every byte the parse reads |
| DumpAnalyzer.DumpSlots | dump_analyzer.py:50-52 | the slot loop from slot i yields 4 - i records, empty slots included |
| DumpAnalyzer.AnalyzeMbr | dump_analyzer.py:42-54 | fails iff the sector is shorter than 512 bytes; otherwise four records, with the warning iff the u16 at 510 is not AA55 |
| DumpAnalyzer.DumpSlotsAt | dump_analyzer.py:50-52 | record k of the loop from slot i is the parse of slot i + k |
| DumpAnalyzer.AnalyzeMbrSlots | dump_analyzer.py:48-54 | record i is the parse of bytes 446 + 16i up to 446 + 16(i + 1) |
| DumpAnalyzer.SignatureBytes | dump_analyzer.py:43-44 | the u16 at 510 is AA55 iff byte 510 is 55 and byte 511 is AA |
| DumpAnalyzer.SignatureDoesNotChangeRecords | dump_analyzer.py:42-54 | sectors differing only in the signature bytes yield the same records |
| DumpAnalyzer.SlotDecodersAgree | disk_analyzer.py:177-188 | both decoders read the same type, start, count and active status from a slot, and agree on what an empty slot is |
| DumpAnalyzer.DumpSlotIsMbrSlot | dump_analyzer.py:51 | the dumper's slot i is the same 16 bytes as the analyzer's slot i |
| DumpAnalyzer.KeptSlotMatchesDump | disk_analyzer.py:169-209 | for a slot the analyzer keeps, its record matches the dumper's record of the same slot, and that record is not empty |
| DumpAnalyzer.KeptRecordsMatchDump | disk_analyzer.py:169-209 | every record the analyzer keeps matches the dumper's record of the same slot, and that record is not empty |
| DumpAnalyzer.DumpRecordKeptIffNotEmpty | disk_analyzer.py:184-185 | the analyzer keeps a record for slot i iff the dumper's record i is not empty |

## Left out

- Printing, colours and the coloured hex dump (`_print_colored_hex_dump`, `print_partitions`, the report generator): presentation only.
- `_find_first_sectors`: it reads and prints each partition's first bytes and decodes nothing.
- `main` and argument parsing, `read_mbr`, and `os.path.getsize`: I/O. The image arrives as a byte sequence, and its size is its length.
- A missing file (`FileNotFoundError`): there is no file system in the model.
- GPT header fields other than the entry LBA, count and size: the analyzer only prints them.
- `size_human`: the two-decimal floating-point text is not modelled. `HumanSize` models only the unit chosen.
- DiskAnalyzer.Analyze: the sector size is a `nat`; negative sizes are not modelled. In Python, `read(-1)` reads the whole file (and the GPT branch then fails at `f.seek(-1)`), and any other negative size raises `ValueError`, so `analyze` returns `false`.
- DiskAnalyzer.Analyze: `os` is imported only when the file runs as a script (disk_analyzer.py:518) but is used inside the `try` at line 84. When the module is imported instead, `analyze` raises `NameError` there and returns `false` on every input. The model describes the script case.
- DiskAnalyzer.Analyze: a seek past the largest offset the file system allows raises `OSError` well below 2^63 (about 2^44 bytes on ext4; an entry LBA of 2^36 with 512-byte sectors is enough). Python then returns `false`, while the model reads nothing and reports GPT with no partitions. The limit depends on the file system, so the model only knows the 2^63 bound.
- DiskAnalyzer.Analyze: the model describes one call of `analyze` on a new analyzer. `partitions` is emptied only when the object is created (disk_analyzer.py:72), and both decoders append to it (lines 211 and 309), so a second call on the same object reports every partition again. The unrecognised branch (lines 148-149) does not reset `partition_type` either. So if the file has changed between calls to bytes that are no longer recognised, a second call decodes again under the kind detected before and returns `true`, where the model gives `Unrecognized`. The pure `Analyze` always gives the same result for the same input, which the source guarantees only for a new object.
- DiskAnalyzer.Analyze: a huge entry size can make `f.read` raise `MemoryError`. Memory is not modelled.
- DiskAnalyzer.DecodeGpt: overflow of the seek offset is decided by `Analyze` before decoding. The decoder itself uses unbounded integers.

=== FILE: bytes.dfy ===
/** Disk images as byte sequences: clamped reads, little-endian fixed-width
    fields (struct's '<H', '<I' and '<Q') and hexadecimal text (binascii.hexlify). */
module Bytes {

  /** One byte of a disk image. */
  type Byte = b: int | 0 <= b < 256

  const U16Limit: nat := 0x1_0000
  const U32Limit: nat := 0x1_0000_0000
  const U64Limit: nat := 0x1_0000_0000_0000_0000

  function Min(a: int, b: int): int {
    if a <= b then a else b
  }

  /** 256 to the power k: the number of values k bytes can hold. */
  function Pow256(k: nat): nat {
    if k == 0 then 1 else 256 * Pow256(k - 1)
  }

  /** The bytes a seek to `offset` followed by a read of `count` bytes returns:
      the read stops at the end of the image and is empty past it. Python's
      slice `data[offset:offset + count]` behaves the same way. */
  function Read(image: seq<Byte>, offset: nat, count: nat): (r: seq<Byte>)
    ensures |r| <= count
    ensures offset + count <= |image| ==> r == image[offset .. offset + count]
    ensures |r| == count <==> count == 0 || offset + count <= |image|
    ensures |r| > 0 ==> offset + |r| <= |image| && r == image[offset .. offset + |r|]
  {
    if offset + count <= |image| then image[offset .. offset + count]
    else if offset < |image| then image[offset..]
    else []
  }

  /** A read running past the end returns exactly the bytes up to the end. */
  lemma ReadPastEnd(image: seq<Byte>, offset: nat, count: nat)
    requires offset + count > |image|
    ensures offset < |image| ==> Read(image, offset, count) == image[offset..]
    ensures offset >= |image| ==> Read(image, offset, count) == []
  {
  }

  /** A part of bytes that agree with the image at `offset` is the image's
      part at the shifted position. */
  lemma SubRange(data: seq<Byte>, image: seq<Byte>, offset: nat, n: nat, a: nat, b: nat)
    requires n <= |data| && offset + n <= |image|
    requires data[..n] == image[offset .. offset + n]
    requires a <= b <= n
    ensures data[a..b] == image[offset + a .. offset + b]
  {
    forall k | 0 <= k < b - a
      ensures data[a..b][k] == image[offset + a .. offset + b][k]
    {
      assert data[a + k] == data[..n][a + k];
    }
  }

  /** Unsigned value of bytes stored least significant first. */
  function LeValue(bs: seq<Byte>): nat
  {
    if |bs| == 0 then 0 else bs[0] + 256 * LeValue(bs[1..])
  }

  /** A `width`-byte little-endian value lies in [0, 256^width). */
  lemma {:induction false} LeValueBound(bs: seq<Byte>)
    ensures LeValue(bs) < Pow256(|bs|)
  {
    if |bs| > 0 {
      LeValueBound(bs[1..]);
      assert LeValue(bs[1..]) + 1 <= Pow256(|bs| - 1);
      calc {
        LeValue(bs);
        == bs[0] + 256 * LeValue(bs[1..]);
        < 256 + 256 * LeValue(bs[1..]);
        == 256 * (LeValue(bs[1..]) + 1);
        <= 256 * Pow256(|bs| - 1);
      }
    }
  }

  /** The `width` bytes that store `n` least significant first (the encoder
      inverse to LeValue; bits above the width are dropped). */
  function LeBytes(n: nat, width: nat): (bs: seq<Byte>)
    ensures |bs| == width
  {
    if width == 0 then [] else [n % 256] + LeBytes(n / 256, width - 1)
  }

  lemma {:induction false} LeBytesRoundTrip(n: nat, width: nat)
    requires n < Pow256(width)
    ensures LeValue(LeBytes(n, width)) == n
  {
    if width > 0 {
      LeBytesRoundTrip(n / 256, width - 1);
      assert LeBytes(n, width)[1..] == LeBytes(n / 256, width - 1);
    }
  }

  lemma {:induction false} LeValueRoundTrip(bs: seq<Byte>)
    ensures LeBytes(LeValue(bs), |bs|) == bs
  {
    if |bs| > 0 {
      LeValueRoundTrip(bs[1..]);
      var n := LeValue(bs);
      assert n % 256 == bs[0] && n / 256 == LeValue(bs[1..]);
    }
  }

  /** The little-endian field of `width` bytes at `offset`. */
  function LeField(data: seq<Byte>, offset: nat, width: nat): (v: nat)
    requires offset + width <= |data|
    ensures v < Pow256(width)
  {
    LeValueBound(data[offset .. offset + width]);
    LeValue(data[offset .. offset + width])
  }

  /** struct.unpack('<H', data[offset:offset + 2]). */
  function U16(data: seq<Byte>, offset: nat): (v: nat)
    requires offset + 2 <= |data|
    ensures v < U16Limit
  {
    LeField(data, offset, 2)
  }

  /** struct.unpack('<I', data[offset:offset + 4]). */
  function U32(data: seq<Byte>, offset: nat): (v: nat)
    requires offset + 4 <= |data|
    ensures v < U32Limit
  {
    LeField(data, offset, 4)
  }

  /** struct.unpack('<Q', data[offset:offset + 8]). */
  function U64(data: seq<Byte>, offset: nat): (v: nat)
    requires offset + 8 <= |data|
    ensures v < U64Limit
  {
    LeField(data, offset, 8)
  }

  /** A field written with LeBytes reads back as the value written. */
  lemma LeFieldOfEncoded(data: seq<Byte>, offset: nat, width: nat, n: nat)
    requires offset + width <= |data|
    requires n < Pow256(width)
    requires data[offset .. offset + width] == LeBytes(n, width)
    ensures LeField(data, offset, width) == n
  {
    LeBytesRoundTrip(n, width);
  }

  predicate AllZero(bs: seq<Byte>) {
    forall k :: 0 <= k < |bs| ==> bs[k] == 0
  }

  const LowerDigits: string := "0123456789abcdef"
  const UpperDigits: string := "0123456789ABCDEF"

  /** The two hexadecimal digits of one byte, high nibble first. */
  function HexDigits(b: Byte, upper: bool): (s: string)
    ensures |s| == 2
  {
    var digits := if upper then UpperDigits else LowerDigits;
    [digits[b / 16], digits[b % 16]]
  }

  /** Two hexadecimal digits per byte: binascii.hexlify, followed by
      str.upper() when `upper` holds. */
  function Hex(bs: seq<Byte>, upper: bool): (s: string)
    ensures |s| == 2 * |bs|
  {
    if |bs| == 0 then "" else HexDigits(bs[0], upper) + Hex(bs[1..], upper)
  }

  /** The value of a hexadecimal digit of either case, or -1. */
  function DigitValue(c: char): (v: int)
    ensures -1 <= v < 16
  {
    if '0' <= c <= '9' then c as int - '0' as int
    else if 'a' <= c <= 'f' then c as int - 'a' as int + 10
    else if 'A' <= c <= 'F' then c as int - 'A' as int + 10
    else -1
  }

  predicate IsHexText(s: string) {
    |s| % 2 == 0 && forall k :: 0 <= k < |s| ==> DigitValue(s[k]) >= 0
  }

  /** Hexadecimal text as Hex(_, true) writes it: upper-case digits only. */
  predicate IsUpperHexText(s: string) {
    |s| % 2 == 0 && forall k :: 0 <= k < |s| ==> s[k] in UpperDigits
  }

  /** The byte spelled by two hexadecimal digits. */
  function PairValue(hi: char, lo: char): int {
    DigitValue(hi) * 16 + DigitValue(lo)
  }

  /** The bytes spelled by hexadecimal text (binascii.unhexlify). */
  function UnHex(s: string): (bs: seq<Byte>)
    requires IsHexText(s)
    ensures |bs| == |s| / 2
  {
    if |s| == 0 then []
    else [PairValue(s[0], s[1])] + UnHex(s[2..])
  }

  lemma DigitsDecode(d: nat, upper: bool)
    requires d < 16
    ensures DigitValue((if upper then UpperDigits else LowerDigits)[d]) == d
  {
  }

  lemma UpperDigitDecode(c: char)
    requires c in UpperDigits
    ensures 0 <= DigitValue(c) < 16 && UpperDigits[DigitValue(c)] == c
  {
    var i :| 0 <= i < |UpperDigits| && UpperDigits[i] == c;
    DigitsDecode(i, true);
  }

  /** The two digits of a byte are hexadecimal digits that spell it. */
  lemma PairOfHexDigits(b: Byte, upper: bool)
    ensures IsHexText(HexDigits(b, upper))
    ensures PairValue(HexDigits(b, upper)[0], HexDigits(b, upper)[1]) == b
  {
    DigitsDecode(b / 16, upper);
    DigitsDecode(b % 16, upper);
  }

  /** Hexadecimal text is read two digits at a time. */
  lemma UnHexConcat(p: string, t: string)
    requires |p| == 2 && IsHexText(p) && IsHexText(t)
    ensures IsHexText(p + t)
    ensures UnHex(p + t) == [PairValue(p[0], p[1])] + UnHex(t)
  {
    var s := p + t;
    assert s[2..] == t;
    forall k | 0 <= k < |s|
      ensures DigitValue(s[k]) >= 0
    {
      if k >= 2 {
        assert s[k] == t[k - 2];
      }
    }
  }

  /** Decoding the hexadecimal text of some bytes gives the bytes back. */
  lemma {:induction false} UnHexOfHex(bs: seq<Byte>, upper: bool)
    ensures IsHexText(Hex(bs, upper))
    ensures UnHex(Hex(bs, upper)) == bs
  {
    if |bs| > 0 {
      UnHexOfHex(bs[1..], upper);
      PairOfHexDigits(bs[0], upper);
      UnHexConcat(HexDigits(bs[0], upper), Hex(bs[1..], upper));
      assert bs == [bs[0]] + bs[1..];
    }
  }

  lemma UpperHexIsHex(s: string)
    requires IsUpperHexText(s)
    ensures IsHexText(s)
  {
    forall k | 0 <= k < |s|
      ensures DigitValue(s[k]) >= 0
    {
      UpperDigitDecode(s[k]);
    }
  }

  lemma UpperHexTail(s: string)
    requires IsUpperHexText(s) && |s| >= 2
    ensures IsUpperHexText(s[2..])
  {
    var t := s[2..];
    forall k | 0 <= k < |t|
      ensures t[k] in UpperDigits
    {
      assert t[k] == s[k + 2];
    }
  }

  /** Two upper-case digits are the digits of the byte they spell. */
  lemma HexDigitsOfPair(hi: char, lo: char)
    requires hi in UpperDigits && lo in UpperDigits
    ensures 0 <= PairValue(hi, lo) < 256
    ensures HexDigits(PairValue(hi, lo), true) == [hi, lo]
  {
    UpperDigitDecode(hi);
    UpperDigitDecode(lo);
    var v := PairValue(hi, lo);
    assert v / 16 == DigitValue(hi) && v % 16 == DigitValue(lo);
  }

  /** Upper-case hexadecimal text is the text of the bytes it spells. */
  lemma {:induction false} HexOfUnHex(s: string)
    requires IsUpperHexText(s)
    ensures IsHexText(s)
    ensures Hex(UnHex(s), true) == s
  {
    UpperHexIsHex(s);
    if |s| > 0 {
      var t := s[2..];
      UpperHexTail(s);
      UpperHexIsHex(t);
      HexOfUnHex(t);
      HexDigitsOfPair(s[0], s[1]);
      var bs := UnHex(s);
      assert bs[0] == PairValue(s[0], s[1]) && bs[1..] == UnHex(t);
      assert Hex(bs, true) == HexDigits(bs[0], true) + Hex(bs[1..], true);
      assert s == [s[0], s[1]] + t;
    }
  }

  /** Distinct byte strings have distinct hexadecimal text. */
  lemma HexInjective(a: seq<Byte>, b: seq<Byte>, upper: bool)
    requires Hex(a, upper) == Hex(b, upper)
    ensures a == b
  {
    UnHexOfHex(a, upper);
    UnHexOfHex(b, upper);
  }

  /** The text of a prefix is the prefix of the text (guid_str[:8] is the
      text of the first four bytes). */
  lemma {:induction false} HexPrefix(bs: seq<Byte>, n: nat, upper: bool)
    requires n <= |bs|
    ensures Hex(bs, upper)[.. 2 * n] == Hex(bs[..n], upper)
  {
    if n > 0 {
      HexPrefix(bs[1..], n - 1, upper);
      assert bs[..n][1..] == bs[1..][..n - 1];
    }
  }
}

=== FILE: catalog.dfy ===
/** The two static type catalogs: MBR type code to description and GPT type
    GUID to description, with the labels used for entries in neither. Each
    catalog is the list of (key, description) pairs in the order the source's
    dictionary literal writes them; its keys are distinct, so the list
    describes the same mapping as the dictionary. */
module Catalog {
  import opened Results
  import opened Bytes

  /** The description listed for `key`: the first pair with that key, or
      None when no pair has it (dict.get). */
  function Find<K(==)>(table: seq<(K, string)>, key: K): Option<string> {
    if |table| == 0 then None
    else if table[0].0 == key then Some(table[0].1)
    else Find(table[1..], key)
  }

  /** Some pair of the table has key `key`. */
  predicate Listed<K(==)>(table: seq<(K, string)>, key: K) {
    exists i :: 0 <= i < |table| && table[i].0 == key
  }

  /** Find fails exactly for keys the table does not list, and what it finds
      is a listed pair. */
  lemma {:induction false} FindSpec<K>(table: seq<(K, string)>, key: K)
    ensures Find(table, key).None? <==> !Listed(table, key)
    ensures Find(table, key).Some? ==>
      exists i :: 0 <= i < |table| && table[i] == (key, Find(table, key).value)
  {
    if |table| > 0 && table[0].0 != key {
      var rest := table[1..];
      FindSpec(rest, key);
      if Listed(table, key) {
        var i :| 0 <= i < |table| && table[i].0 == key;
        assert rest[i - 1] == table[i];
      }
      if Find(rest, key).Some? {
        var i :| 0 <= i < |rest| && rest[i] == (key, Find(rest, key).value);
        assert table[i + 1] == rest[i];
      }
    } else if |table| > 0 {
      assert table[0] == (key, Find(table, key).value);
    }
  }

  /** No key is listed twice. */
  predicate DistinctKeys<K(==)>(table: seq<(K, string)>) {
    forall i, j :: 0 <= i < j < |table| ==> table[i].0 != table[j].0
  }

  /** With distinct keys every listed pair is found as written: the list
      behaves as the dictionary. */
  lemma {:induction false} FindListed<K>(table: seq<(K, string)>, i: nat)
    requires DistinctKeys(table) && i < |table|
    ensures Find(table, table[i].0) == Some(table[i].1)
  {
    if i > 0 {
      assert table[0].0 != table[i].0;
      assert DistinctKeys(table[1..]) by {
        forall a, b | 0 <= a < b < |table| - 1
          ensures table[1..][a].0 != table[1..][b].0
        {
          assert table[1..][a] == table[a + 1] && table[1..][b] == table[b + 1];
        }
      }
      FindListed(table[1..], i - 1);
      assert table[1..][i - 1] == table[i];
    }
  }

  /** `d` is one of the descriptions a table lists. */
  predicate IsDescription<K>(table: seq<(K, string)>, d: string) {
    exists i :: 0 <= i < |table| && table[i].1 == d
  }

  /** The MBR type-code table (disk_analyzer.py, _get_partition_description). */
  const MbrTable: seq<(Byte, string)> := [
      (0x00, "Пустой"),
      (0x01, "FAT12"),
      (0x04, "FAT16 <32MB"),
      (0x05, "Расширенный"),
      (0x06, "FAT16 >32MB"),
      (0x07, "NTFS/HPFS/exFAT"),
      (0x0B, "FAT32 (CHS)"),
      (0x0C, "FAT32 (LBA)"),
      (0x0E, "FAT16 (LBA)"),
      (0x0F, "Расширенный (LBA)"),
      (0x11, "Скрытый FAT12"),
      (0x14, "Скрытый FAT16 <32MB"),
      (0x16, "Скрытый FAT16 >32MB"),
      (0x1B, "Скрытый FAT32 (CHS)"),
      (0x1C, "Скрытый FAT32 (LBA)"),
      (0x1E, "Скрытый FAT16 (LBA)"),
      (0x82, "Linux Swap"),
      (0x83, "Linux Native"),
      (0x85, "Linux Extended"),
      (0x8E, "Linux LVM"),
      (0xA5, "FreeBSD"),
      (0xA6, "OpenBSD"),
      (0xA8, "macOS Darwin UFS"),
      (0xA9, "NetBSD"),
      (0xAB, "macOS Darwin Boot"),
      (0xAF, "macOS Darwin HFS/HFS+"),
      (0xB7, "BSDI"),
      (0xB8, "BSDI Swap"),
      (0xEE, "GPT защитный MBR"),
      (0xEF, "EFI System Partition"),
      (0xFC, "VMWare VMFS"),
      (0xFD, "Linux RAID")
    ]

  /** The MBR codes are listed in increasing order, hence without repeats. */
  lemma MbrKeysDistinct()
    ensures DistinctKeys(MbrTable)
  {
    assert forall i :: 0 <= i < |MbrTable| - 1 ==> MbrTable[i].0 < MbrTable[i + 1].0;
    IncreasingKeysDistinct(MbrTable);
  }

  /** Byte keys in strictly increasing order are distinct. */
  lemma {:induction false} IncreasingKeysDistinct(table: seq<(Byte, string)>)
    requires forall i :: 0 <= i < |table| - 1 ==> table[i].0 < table[i + 1].0
    ensures forall i, j :: 0 <= i < j < |table| ==> table[i].0 < table[j].0
    ensures DistinctKeys(table)
  {
    if |table| > 1 {
      var rest := table[1..];
      assert forall i :: 0 <= i < |rest| - 1 ==> rest[i].0 < rest[i + 1].0 by {
        forall i | 0 <= i < |rest| - 1
          ensures rest[i].0 < rest[i + 1].0
        {
          assert rest[i] == table[i + 1] && rest[i + 1] == table[i + 2];
        }
      }
      IncreasingKeysDistinct(rest);
      forall i, j | 0 <= i < j < |table|
        ensures table[i].0 < table[j].0
      {
        if i > 0 {
          assert table[i] == rest[i - 1] && table[j] == rest[j - 1];
        } else if j > 1 {
          assert table[1] == rest[0] && table[j] == rest[j - 1];
        }
      }
    }
  }

  /** Start of the label of an uncatalogued MBR type code. */
  const MbrUnknownPrefix: string := "Неизвестный (0x"

  /** No catalogued MBR description can be mistaken for the unknown label:
      none starts like it. */
  lemma MbrDescriptionsAreNotUnknownLabels(s: string)
    requires |s| > 0 && s[0] == MbrUnknownPrefix[0]
    ensures !IsDescription(MbrTable, s)
  {
    assert forall i :: 0 <= i < |MbrTable| ==>
      |MbrTable[i].1| > 0 && MbrTable[i].1[0] != MbrUnknownPrefix[0];
  }

  /** The description of an MBR type code: the listed one, or the unknown
      label with the code in two upper-case hexadecimal digits. */
  function MbrTypeName(code: Byte): string {
    match Find(MbrTable, code)
    case Some(d) => d
    case None => MbrUnknownPrefix + Hex([code], true) + ")"
  }

  /** A code's label is a catalogued description exactly when the code is
      catalogued; an uncatalogued code gets the unknown label. */
  lemma MbrTypeNameKnownIff(code: Byte)
    ensures IsDescription(MbrTable, MbrTypeName(code)) <==> Listed(MbrTable, code)
    ensures !Listed(MbrTable, code) ==>
      MbrTypeName(code) == MbrUnknownPrefix + Hex([code], true) + ")"
  {
    FindSpec(MbrTable, code);
    if Find(MbrTable, code).None? {
      var middle := Hex([code], true);
      LabelStart(MbrUnknownPrefix, middle, ")");
      MbrDescriptionsAreNotUnknownLabels(MbrUnknownPrefix + middle + ")");
    }
  }

  /** Every listed code is described as the table lists it. */
  lemma MbrTypeNameOfListed(i: nat)
    requires i < |MbrTable|
    ensures MbrTypeName(MbrTable[i].0) == MbrTable[i].1
  {
    MbrKeysDistinct();
    FindListed(MbrTable, i);
  }

  /** For instance, code 83 is described as a native Linux partition. */
  lemma LinuxNativeCode()
    ensures MbrTypeName(0x83) == "Linux Native"
  {
    assert MbrTable[17] == (0x83, "Linux Native");
    MbrTypeNameOfListed(17);
  }

  /** A label starts with its prefix's first character. */
  lemma LabelStart(prefix: string, middle: string, suffix: string)
    requires |prefix| > 0
    ensures |prefix + middle + suffix| > 0 && (prefix + middle + suffix)[0] == prefix[0]
  {
  }

  /** The text between a prefix and a suffix can be read back. */
  lemma LabelMiddle(prefix: string, middle: string, suffix: string)
    ensures (prefix + middle + suffix)[|prefix| .. |prefix| + |middle|] == middle
  {
    var whole := prefix + middle + suffix;
    forall k | 0 <= k < |middle|
      ensures whole[|prefix| + k] == middle[k]
    {
    }
  }

  /** The unknown label identifies the code: two uncatalogued codes with the
      same label are the same code. */
  lemma MbrUnknownLabelIdentifiesCode(a: Byte, b: Byte)
    requires !Listed(MbrTable, a) && !Listed(MbrTable, b)
    requires MbrTypeName(a) == MbrTypeName(b)
    ensures a == b
  {
    FindSpec(MbrTable, a);
    FindSpec(MbrTable, b);
    UnknownMbrLabelsDiffer(a, b);
  }

  /** Distinct codes have distinct unknown labels. */
  lemma UnknownMbrLabelsDiffer(a: Byte, b: Byte)
    requires MbrUnknownPrefix + Hex([a], true) + ")" == MbrUnknownPrefix + Hex([b], true) + ")"
    ensures a == b
  {
    LabelMiddle(MbrUnknownPrefix, Hex([a], true), ")");
    LabelMiddle(MbrUnknownPrefix, Hex([b], true), ")");
    HexInjective([a], [b], true);
  }

  /** The GPT type table (disk_analyzer.py, _get_gpt_partition_type), keyed
      as the source keys it: by the upper-case hexadecimal text of the raw
      16 type-GUID bytes. */
  const GptTable: seq<(string, string)> := [
      (EfiSystemText, "EFI System Partition"),
      (MicrosoftReservedText, "Microsoft Reserved"),
      (MicrosoftBasicDataText, "Microsoft Basic Data"),
      (LinuxLvmText, "Linux LVM"),
      (LinuxFilesystemText, "Linux Filesystem"),
      (LinuxSwapText, "Linux Swap"),
      (LinuxReservedText, "Linux Reserved"),
      (AppleApfsText, "Apple APFS"),
      (AppleHfsPlusText, "Apple HFS+"),
      (AppleApfsContainerText, "Apple APFS Container")
    ]

  const EfiSystemText: string := "C12A7328F81F11D2BA4B00A0C93EC93B"
  const MicrosoftReservedText: string := "E3C9E3160B5C4DB8817DF92DF00215AE"
  const MicrosoftBasicDataText: string := "EBD0A0A2B9E5443387C068B6B72699C7"
  const LinuxLvmText: string := "5808C8AA7E8F42E085FE4F984F2F9F50"
  const LinuxFilesystemText: string := "0FC63DAF848347728E793D69D8477DE4"
  const LinuxSwapText: string := "0657FD6DA4AB43C484E50933C84B4F4F"
  const LinuxReservedText: string := "8DA63339000011C2950003FF48464D45"
  const AppleApfsText: string := "83BD6B9D7F418719B69478DDA015F979"
  const AppleHfsPlusText: string := "48465300000011AAAA1100306543ECAC"
  const AppleApfsContainerText: string := "7C3457EF000011AA8AA3005195CAF3CA"

  /** The GPT keys differ already in their first two digits. */
  lemma GptKeysDistinct()
    ensures DistinctKeys(GptTable)
  {
    assert forall i, j :: 0 <= i < j < |GptTable| ==>
      GptTable[i].0[0] != GptTable[j].0[0] || GptTable[i].0[1] != GptTable[j].0[1];
  }

  /** Every GPT key is the upper-case text of 16 bytes. The literals are
      checked two at a time, which keeps each proof small. */
  lemma GptKeysAreUpperHex()
    ensures forall i :: 0 <= i < |GptTable| ==>
      |GptTable[i].0| == 32 && IsUpperHexText(GptTable[i].0)
  {
    UpperHexKeysFrom0();
    UpperHexKeysFrom2();
    UpperHexKeysFrom4();
    UpperHexKeysFrom6();
    UpperHexKeysFrom8();
  }

  lemma UpperHexKeysFrom0()
    ensures IsUpperHexText(GptTable[0].0) && IsUpperHexText(GptTable[1].0)
  {
  }

  lemma UpperHexKeysFrom2()
    ensures IsUpperHexText(GptTable[2].0) && IsUpperHexText(GptTable[3].0)
  {
  }

  lemma UpperHexKeysFrom4()
    ensures IsUpperHexText(GptTable[4].0) && IsUpperHexText(GptTable[5].0)
  {
  }

  lemma UpperHexKeysFrom6()
    ensures IsUpperHexText(GptTable[6].0) && IsUpperHexText(GptTable[7].0)
  {
  }

  lemma UpperHexKeysFrom8()
    ensures IsUpperHexText(GptTable[8].0) && IsUpperHexText(GptTable[9].0)
  {
  }

  /** The 16 bytes whose upper-case text is the i-th GPT key. */
  function GptKeyBytes(i: nat): (key: seq<Byte>)
    requires i < |GptTable|
    ensures |key| == 16 && Hex(key, true) == GptTable[i].0
  {
    GptKeysAreUpperHex();
    HexOfUnHex(GptTable[i].0);
    UnHex(GptTable[i].0)
  }

  /** Start of the label of an uncatalogued GPT type GUID. */
  const GptUnknownPrefix: string := "Unknown GUID ("

  /** No catalogued GPT description starts like the unknown label. */
  lemma GptDescriptionsAreNotUnknownLabels(s: string)
    requires |s| > 0 && s[0] == GptUnknownPrefix[0]
    ensures !IsDescription(GptTable, s)
  {
    assert forall i :: 0 <= i < |GptTable| ==>
      |GptTable[i].1| > 0 && GptTable[i].1[0] != GptUnknownPrefix[0];
  }

  /** The description of a GPT type GUID given as its raw bytes: the one
      listed for its upper-case text, or the unknown label carrying the first
      eight digits of that text. */
  function GptTypeName(typeGuid: seq<Byte>): string {
    var text := Hex(typeGuid, true);
    match Find(GptTable, text)
    case Some(d) => d
    case None => UnknownGuidLabel(typeGuid)
  }

  /** The label of an uncatalogued GUID: the first eight digits of its text
      (guid_str[:8]), which are the text of its first four bytes. */
  function UnknownGuidLabel(typeGuid: seq<Byte>): (s: string)
    ensures s == GptUnknownPrefix + Hex(typeGuid[..Min(4, |typeGuid|)], true) + "...)"
  {
    var text := Hex(typeGuid, true);
    FirstEightDigits(typeGuid);
    GptUnknownPrefix + text[..Min(8, |text|)] + "...)"
  }

  /** A GUID's label is a catalogued description exactly when the GUID's
      text is catalogued. */
  lemma GptTypeNameKnownIff(typeGuid: seq<Byte>)
    ensures IsDescription(GptTable, GptTypeName(typeGuid)) <==> Listed(GptTable, Hex(typeGuid, true))
  {
    var text := Hex(typeGuid, true);
    FindSpec(GptTable, text);
    if Find(GptTable, text).None? {
      var middle := Hex(typeGuid[..Min(4, |typeGuid|)], true);
      LabelStart(GptUnknownPrefix, middle, "...)");
      GptDescriptionsAreNotUnknownLabels(GptUnknownPrefix + middle + "...)");
    }
  }

  /** An uncatalogued GUID gets the unknown label with the text of its
      first four bytes. */
  lemma GptUnknownLabel(typeGuid: seq<Byte>)
    ensures !Listed(GptTable, Hex(typeGuid, true)) ==>
      GptTypeName(typeGuid) == GptUnknownPrefix + Hex(typeGuid[..Min(4, |typeGuid|)], true) + "...)"
  {
    var text := Hex(typeGuid, true);
    FindSpec(GptTable, text);
    if Find(GptTable, text).None? {
      GptTypeNameOfUnfound(typeGuid);
    }
  }

  lemma GptTypeNameOfUnfound(typeGuid: seq<Byte>)
    requires Find(GptTable, Hex(typeGuid, true)) == None
    ensures GptTypeName(typeGuid) == UnknownGuidLabel(typeGuid)
  {
  }

  /** The first eight digits of a GUID's text (guid_str[:8]) are the text of
      its first four bytes. */
  lemma FirstEightDigits(typeGuid: seq<Byte>)
    ensures var text := Hex(typeGuid, true);
      text[..Min(8, |text|)] == Hex(typeGuid[..Min(4, |typeGuid|)], true)
  {
    HexPrefix(typeGuid, Min(4, |typeGuid|), true);
  }

  /** Every catalogued GUID is described as the table lists it. */
  lemma GptTypeNameOfListed(i: nat)
    requires i < |GptTable|
    ensures GptTypeName(GptKeyBytes(i)) == GptTable[i].1
  {
    GptKeysDistinct();
    FindListed(GptTable, i);
  }

  /** Comparing upper-case hexadecimal text, as the source does, is comparing
      the raw bytes: a GUID's text is the i-th key exactly when the GUID is
      the bytes that key spells. */
  lemma GptTextLookupIsByteMatch(typeGuid: seq<Byte>, i: nat)
    requires i < |GptTable|
    ensures Hex(typeGuid, true) == GptTable[i].0 <==> typeGuid == GptKeyBytes(i)
  {
    if Hex(typeGuid, true) == GptTable[i].0 {
      HexInjective(typeGuid, GptKeyBytes(i), true);
    }
  }

  /** So a GUID is catalogued exactly when it is the bytes of some key. */
  lemma GptListedIffKeyBytes(typeGuid: seq<Byte>)
    ensures Listed(GptTable, Hex(typeGuid, true)) <==>
      exists i :: 0 <= i < |GptTable| && typeGuid == GptKeyBytes(i)
  {
    if Listed(GptTable, Hex(typeGuid, true)) {
      var i :| 0 <= i < |GptTable| && GptTable[i].0 == Hex(typeGuid, true);
      GptTextLookupIsByteMatch(typeGuid, i);
    }
  }
}

/** How the catalog keys relate to GUIDs as GPT entries store them. */
module GuidByteOrder {
  import opened Bytes
  import opened Catalog

  /** A GUID in the byte order a GPT entry stores it: the first three
      fields (4, 2 and 2 bytes) little-endian, the last eight bytes as
      written. */
  function StoredOrder(g: seq<Byte>): (d: seq<Byte>)
    requires |g| == 16
    ensures |d| == 16
  {
    [g[3], g[2], g[1], g[0], g[5], g[4], g[7], g[6]] + g[8..]
  }

  /** Converting twice gives the GUID back. */
  lemma StoredOrderInvolution(g: seq<Byte>)
    requires |g| == 16
    ensures StoredOrder(StoredOrder(g)) == g
  {
    var d := StoredOrder(g);
    assert d[8..] == g[8..];
    assert StoredOrder(d)[..8] == g[..8];
    assert g == g[..8] + g[8..];
  }

  /** `g` is the EFI System type C12A7328-F81F-11D2-BA4B-00A0C93EC93B in
      textual digit order: the bytes the first GPT key spells. */
  predicate IsEfiSystemKey(g: seq<Byte>) {
    Hex(g, true) == GptTable[0].0
  }

  /** The first field of the EFI System type is C1 2A 73 28 in text order,
      so on disk it is 28 73 2A C1. */
  lemma EfiSystemFirstField(g: seq<Byte>)
    requires IsEfiSystemKey(g)
    ensures |g| == 16
    ensures g[..4] == [0xC1, 0x2A, 0x73, 0x28]
    ensures StoredOrder(g)[..4] == [0x28, 0x73, 0x2A, 0xC1]
  {
    HexPrefix(g, 4, true);
    assert GptTable[0].0[..8] == "C12A7328";
    HexOfKeyFirstFour();
    HexInjective(g[..4], [0xC1, 0x2A, 0x73, 0x28], true);
    assert g[0] == 0xC1 && g[1] == 0x2A && g[2] == 0x73 && g[3] == 0x28 by {
      assert g[..4][0] == g[0] && g[..4][1] == g[1] && g[..4][2] == g[2] && g[..4][3] == g[3];
    }
  }

  lemma HexOfKeyFirstFour()
    ensures Hex([0xC1, 0x2A, 0x73, 0x28], true) == "C12A7328"
  {
  }

  lemma HexOfFirstFour()
    ensures Hex([0x28, 0x73, 0x2A, 0xC1], true) == "28732AC1"
  {
  }

  /** The keys spell each GUID in its textual digit order, while a GPT entry
      stores the first three GUID fields little-endian. So the EFI System type
      as written on disk is reported unknown... */
  lemma EfiSystemOnDiskIsUnknown(g: seq<Byte>)
    requires IsEfiSystemKey(g)
    ensures !IsDescription(GptTable, GptTypeName(StoredOrder(g)))
    ensures GptTypeName(StoredOrder(g)) == GptUnknownPrefix + "28732AC1" + "...)"
  {
    EfiSystemFirstField(g);
    var d := StoredOrder(g);
    var text := Hex(d, true);
    HexPrefix(d, 4, true);
    HexOfFirstFour();
    assert text[0] == '2';
    assert forall i :: 0 <= i < |GptTable| ==> GptTable[i].0[0] != '2';
    assert !Listed(GptTable, text);
    GptTypeNameKnownIff(d);
    GptUnknownLabel(d);
  }

  /** ... and exactly the byte string spelling the key in text order is
      described as the EFI System type. */
  lemma EfiSystemTextOrderIsKnown(g: seq<Byte>)
    ensures GptTypeName(g) == "EFI System Partition" <==> IsEfiSystemKey(g)
  {
    var text := Hex(g, true);
    FindSpec(GptTable, text);
    if IsEfiSystemKey(g) {
      GptKeysDistinct();
      FindListed(GptTable, 0);
    }
    if GptTypeName(g) == "EFI System Partition" {
      GptTypeNameKnownIff(g);
      assert IsDescription(GptTable, GptTypeName(g)) by {
        assert GptTable[0].1 == "EFI System Partition";
      }
      var j :| 0 <= j < |GptTable| && GptTable[j] == (text, "EFI System Partition");
      assert forall k :: 0 < k < |GptTable| ==> GptTable[k].1[0] != 'E';
    }
  }
}

=== FILE: disk_analyzer.dfy ===
/** The partition-table analyzer of disk_analyzer.py: table-type detection,
    MBR and GPT decoding into partition records, and the dispatch of
    DiskAnalyzer.analyze, all as pure functions over the disk image. */
module DiskAnalyzer {
  import opened Results
  import opened Bytes
  import opened Catalog
  import Utf16

  /** PartitionType: a protective MBR is classified as Gpt; there is no
      separate hybrid value. */
  datatype TableKind = Mbr | Gpt | Unknown

  /** One decoded partition (the PartitionEntry dataclass without the
      printed size text). Sizes and ends are plain integers: nothing in the
      source keeps them non-negative or ordered. */
  datatype PartitionEntry = PartitionEntry(
    number: int,
    typeName: string,
    typeCode: int,
    startSector: int,
    sizeSectors: int,
    endSector: int,
    sizeBytes: int,
    guid: string,
    name: string,
    attributes: int,
    isActive: bool)

  /** The size in bytes of a run of sectors: `sectorSize` copies of the
      sector count added up. Written as a recursion rather than a product so
      that a record's size stays a plain term until SizeInBytesIsProduct is
      called; the product is what the lemma states. */
  function SizeInBytes(sectors: int, sectorSize: nat): int
    decreases sectorSize
  {
    if sectorSize == 0 then 0 else SizeInBytes(sectors, sectorSize - 1) + sectors
  }

  /** The size in bytes is the sector count times the sector size. */
  lemma {:induction false} SizeInBytesIsProduct(sectors: int, sectorSize: nat)
    ensures SizeInBytes(sectors, sectorSize) == sectors * sectorSize
  {
    if sectorSize > 0 {
      SizeInBytesIsProduct(sectors, sectorSize - 1);
    }
  }

  /** Why analyze returns False: the image is shorter than one sector, the
      first sector is too short to index the MBR signature, no table was
      recognised, or a read size or seek offset does not fit a file offset. */
  datatype Failure = TooSmall | IndexFault | Unrecognized | OffsetOverflow

  /** What detection records: the table kind and whether bytes 510..511 hold
      the 55 AA boot signature (boot_signature). */
  datatype Detection = Detection(kind: TableKind, bootSignature: bool)

  /** The analyzer's state after a successful analyze. */
  datatype DiskReport = DiskReport(
    kind: TableKind,
    bootSignature: bool,
    diskSize: nat,
    sectorSize: nat,
    partitions: seq<PartitionEntry>)

  const ProtectiveType: Byte := 0xEE
  const ActiveStatus: Byte := 0x80
  /** The GPT signature "EFI PART" in ASCII. */
  const EfiPart: seq<Byte> := [0x45, 0x46, 0x49, 0x20, 0x50, 0x41, 0x52, 0x54]

  // ---------------------------------------------------------------------
  // Table-type detection (_detect_partition_type)
  // ---------------------------------------------------------------------

  predicate HasBootSignature(sector: seq<Byte>) {
    |sector| >= 512 && sector[510] == 0x55 && sector[511] == 0xAA
  }

  /** Classifies the first sector. Bytes 510/511 equal to 55 AA mean MBR, or
      GPT when the first slot's type byte is EE; otherwise bytes 512..520 of
      the same sector (empty for a 512-byte sector) must spell "EFI PART" for
      GPT, and anything else is Unknown. A sector too short for the indexing
      of byte 510 (or of 511, which is only looked at when 510 holds 55)
      raises IndexError, an error here. */
  function DetectTableType(sector: seq<Byte>): (r: Result<Detection, Failure>)
    ensures r.Err? <==> |sector| <= 510 || (|sector| == 511 && sector[510] == 0x55)
    ensures r.Err? ==> r.error == IndexFault
    ensures r.Ok? ==> (r.value.bootSignature <==> HasBootSignature(sector))
    ensures r.Ok? ==> (r.value.kind == Mbr <==>
      HasBootSignature(sector) && sector[450] != ProtectiveType)
    ensures r.Ok? ==> (r.value.kind == Gpt <==>
      if HasBootSignature(sector) then sector[450] == ProtectiveType
      else Read(sector, 0x200, 8) == EfiPart)
  {
    if |sector| <= 510 then Err(IndexFault)
    else if sector[510] == 0x55 && |sector| == 511 then Err(IndexFault)
    else if sector[510] == 0x55 && sector[511] == 0xAA then
      Ok(Detection(if sector[450] == ProtectiveType then Gpt else Mbr, true))
    else if Read(sector, 0x200, 8) == EfiPart then Ok(Detection(Gpt, false))
    else Ok(Detection(Unknown, false))
  }

  /** Detection looks at nothing but the marker bytes: two sectors, of any
      lengths from 512 on, that agree on bytes 450, 510, 511 and 512..520 are
      classified alike. */
  lemma DetectionReadsOnlyMarkers(a: seq<Byte>, b: seq<Byte>)
    requires |a| >= 512 && |b| >= 512
    requires a[450] == b[450]
    requires a[510] == b[510] && a[511] == b[511]
    requires Read(a, 0x200, 8) == Read(b, 0x200, 8)
    ensures DetectTableType(a) == DetectTableType(b)
  {
  }

  // ---------------------------------------------------------------------
  // MBR decoding (_analyze_mbr)
  // ---------------------------------------------------------------------

  /** The 16 bytes of slot `i` (0..3) of the MBR partition table. */
  function MbrSlot(sector: seq<Byte>, i: nat): seq<Byte> {
    Read(sector, 446 + 16 * i, 16)
  }

  /** A slot with type 00 and start LBA 0 is empty and skipped. */
  predicate IsEmptySlot(slot: seq<Byte>)
    requires |slot| >= 16
  {
    slot[4] == 0 && U32(slot, 8) == 0
  }

  /** The record for slot `i`: status byte 0, type byte 4, start LBA and
      sector count little-endian at 8 and 12; numbered by slot. */
  function MbrRecord(slot: seq<Byte>, i: nat, sectorSize: nat): PartitionEntry
    requires |slot| >= 16
  {
    var start := U32(slot, 8);
    var count := U32(slot, 12);
    PartitionEntry(
      number := i + 1,
      typeName := MbrTypeName(slot[4]),
      typeCode := slot[4],
      startSector := start,
      sizeSectors := count,
      endSector := start + count - 1,
      sizeBytes := SizeInBytes(count, sectorSize),
      guid := "",
      name := "",
      attributes := 0,
      isActive := slot[0] == ActiveStatus)
  }

  /** Slot `j` produces a record: it is one of the four, fully present, and
      not empty. */
  predicate SlotKept(sector: seq<Byte>, j: nat) {
    j < 4 && |MbrSlot(sector, j)| >= 16 && !IsEmptySlot(MbrSlot(sector, j))
  }

  /** The loop over slots i..3, by slot index: short or empty slots are
      skipped and leave a gap in the numbering; exactly the kept slots remain,
      in increasing order. */
  function KeptSlots(sector: seq<Byte>, i: nat): (js: seq<nat>)
    requires i <= 4
    decreases 4 - i
    ensures |js| <= 4 - i
    ensures forall k :: 0 <= k < |js| ==> i <= js[k] < 4 && SlotKept(sector, js[k])
    ensures forall k, l :: 0 <= k < l < |js| ==> js[k] < js[l]
    ensures forall j :: i <= j < 4 && SlotKept(sector, j) ==> j in js
  {
    if i == 4 then []
    else if SlotKept(sector, i) then [i] + KeptSlots(sector, i + 1)
    else KeptSlots(sector, i + 1)
  }

  /** The records of the given slots, numbered by slot. */
  function MbrRecords(sector: seq<Byte>, sectorSize: nat, js: seq<nat>): (r: seq<PartitionEntry>)
    requires forall k :: 0 <= k < |js| ==> |MbrSlot(sector, js[k])| >= 16
    ensures |r| == |js|
  {
    seq(|js|, k requires 0 <= k < |js| => MbrRecord(MbrSlot(sector, js[k]), js[k], sectorSize))
  }

  /** The partitions of an MBR: at most four, one per kept slot in slot
      order. */
  function DecodeMbr(sector: seq<Byte>, sectorSize: nat): (r: seq<PartitionEntry>)
    ensures |r| <= 4
  {
    MbrRecords(sector, sectorSize, KeptSlots(sector, 0))
  }

  /** The MBR records are numbered by slot, so their numbers lie in 1..4 and
      strictly increase. */
  lemma MbrNumbersIncrease(sector: seq<Byte>, sectorSize: nat)
    ensures var r := DecodeMbr(sector, sectorSize);
      && (forall k :: 0 <= k < |r| ==> 1 <= r[k].number <= 4)
      && (forall k, l :: 0 <= k < l < |r| ==> r[k].number < r[l].number)
  {
  }

  /** Every decoded MBR record is the record of the kept slot its number
      names. */
  lemma MbrDecodedRecord(sector: seq<Byte>, sectorSize: nat, e: PartitionEntry)
    requires e in DecodeMbr(sector, sectorSize)
    ensures 1 <= e.number <= 4 && SlotKept(sector, e.number - 1)
    ensures e == MbrRecord(MbrSlot(sector, e.number - 1), e.number - 1, sectorSize)
  {
    var r := DecodeMbr(sector, sectorSize);
    var k :| 0 <= k < |r| && r[k] == e;
    assert e.number - 1 == KeptSlots(sector, 0)[k];
  }

  /** Every kept slot is decoded, under the number slot + 1. */
  lemma MbrKeptSlotDecoded(sector: seq<Byte>, sectorSize: nat, j: nat)
    requires SlotKept(sector, j)
    ensures MbrRecord(MbrSlot(sector, j), j, sectorSize) in DecodeMbr(sector, sectorSize)
  {
    var r := DecodeMbr(sector, sectorSize);
    var js := KeptSlots(sector, 0);
    var k :| 0 <= k < |js| && js[k] == j;
    assert r[k] in r;
  }

  /** A slot is decoded into a record exactly when it is not empty (type 00
      with start LBA 0): empty slots yield nothing, all others yield the
      record numbered slot + 1. */
  lemma MbrSlotDecodedIffNotEmpty(sector: seq<Byte>, sectorSize: nat, j: nat)
    requires |sector| >= 512 && j < 4
    ensures (exists e :: e in DecodeMbr(sector, sectorSize) && e.number == j + 1)
      <==> !IsEmptySlot(MbrSlot(sector, j))
  {
    if !IsEmptySlot(MbrSlot(sector, j)) {
      MbrKeptSlotDecoded(sector, sectorSize, j);
      var e := MbrRecord(MbrSlot(sector, j), j, sectorSize);
      assert e in DecodeMbr(sector, sectorSize) && e.number == j + 1;
    } else if e :| e in DecodeMbr(sector, sectorSize) && e.number == j + 1 {
      MbrDecodedRecord(sector, sectorSize, e);
    }
  }

  /** The record of a kept slot, field by field, read from the sector at
      the slot's offset. */
  lemma MbrRecordOfSlot(sector: seq<Byte>, sectorSize: nat, j: nat)
    requires SlotKept(sector, j)
    ensures var off := 446 + 16 * j;
      var e := MbrRecord(MbrSlot(sector, j), j, sectorSize);
      && off + 16 <= |sector|
      && !(sector[off + 4] == 0 && U32(sector, off + 8) == 0)
      && e.number == j + 1
      && e.typeCode == sector[off + 4]
      && e.typeName == MbrTypeName(sector[off + 4])
      && e.startSector == U32(sector, off + 8)
      && e.sizeSectors == U32(sector, off + 12)
      && e.endSector == e.startSector + e.sizeSectors - 1
      && e.sizeBytes == e.sizeSectors * sectorSize
      && (e.isActive <==> sector[off] == ActiveStatus)
      && e.guid == "" && e.name == "" && e.attributes == 0
  {
    var off := 446 + 16 * j;
    var slot := MbrSlot(sector, j);
    SizeInBytesIsProduct(U32(slot, 12), sectorSize);
    assert slot[..16] == sector[off .. off + 16];
    SubRange(slot, sector, off, 16, 8, 12);
    SubRange(slot, sector, off, 16, 12, 16);
  }

  /** Nothing orders start and end: an MBR record ends before it starts
      exactly when its sector count is 0. */
  lemma MbrEndBeforeStartIffNoSectors(sector: seq<Byte>, sectorSize: nat, e: PartitionEntry)
    requires e in DecodeMbr(sector, sectorSize)
    ensures e.endSector < e.startSector <==> e.sizeSectors == 0
  {
    MbrDecodedRecord(sector, sectorSize, e);
  }

  /** When only the first slot is kept, it is the only record. */
  lemma MbrOnlyFirstSlot(sector: seq<Byte>, sectorSize: nat)
    requires SlotKept(sector, 0)
    requires forall j :: 1 <= j < 4 ==> !SlotKept(sector, j)
    ensures DecodeMbr(sector, sectorSize) == [MbrRecord(MbrSlot(sector, 0), 0, sectorSize)]
  {
    assert KeptSlots(sector, 3) == [];
    assert KeptSlots(sector, 1) == KeptSlots(sector, 2) == [];
    assert KeptSlots(sector, 0) == [0];
  }

  /** A sector whose first slot holds an active Linux partition (status 80,
      type 83) of 204800 sectors from LBA 2048, the other three slots empty,
      decodes to that one partition: number 1, ending at LBA 206847. */
  lemma MbrSingleLinuxPartition(sector: seq<Byte>, sectorSize: nat)
    requires |sector| >= 512
    requires sector[446] == 0x80 && sector[450] == 0x83
    requires sector[454..458] == LeBytes(2048, 4) && sector[458..462] == LeBytes(204800, 4)
    requires forall j :: 1 <= j < 4 ==> IsEmptySlot(MbrSlot(sector, j))
    ensures DecodeMbr(sector, sectorSize) == [PartitionEntry(
      number := 1, typeName := "Linux Native", typeCode := 0x83,
      startSector := 2048, sizeSectors := 204800, endSector := 206847,
      sizeBytes := 204800 * sectorSize, guid := "", name := "", attributes := 0,
      isActive := true)]
  {
    var slot := MbrSlot(sector, 0);
    assert slot[..16] == sector[446..462];
    SubRange(slot, sector, 446, 16, 8, 12);
    SubRange(slot, sector, 446, 16, 12, 16);
    LeFieldOfEncoded(slot, 8, 4, 2048);
    LeFieldOfEncoded(slot, 12, 4, 204800);
    SizeInBytesIsProduct(204800, sectorSize);
    MbrOnlyFirstSlot(sector, sectorSize);
    LinuxNativeCode();
    var e := MbrRecord(slot, 0, sectorSize);
    assert e.typeName == "Linux Native";
    assert e.startSector == 2048 && e.sizeSectors == 204800;
  }

  // ---------------------------------------------------------------------
  // GPT decoding (_analyze_gpt)
  // ---------------------------------------------------------------------

  /** The header fields the entry walk uses: the LBA of the entry array
      (offset 72, u64), the number of entries (offset 80, u32) and the size
      of one entry (offset 84, u32). */
  datatype GptHeader = GptHeader(entriesLba: nat, entryCount: nat, entrySize: nat)

  /** The header read at LBA 1: fewer than 92 bytes is no header. */
  function ParseGptHeader(h: seq<Byte>): (r: Option<GptHeader>)
    ensures r.None? <==> |h| < 92
    ensures r.Some? ==> r.value.entryCount < U32Limit && r.value.entrySize < U32Limit
    ensures r.Some? ==> r.value.entriesLba < U64Limit
  {
    if |h| < 92 then None
    else Some(GptHeader(U64(h, 72), U32(h, 80), U32(h, 84)))
  }

  /** A header whose fields were written little-endian reads them back. */
  lemma ParseGptHeaderOfEncoded(h: seq<Byte>, lba: nat, count: nat, size: nat)
    requires |h| >= 92
    requires lba < U64Limit && count < U32Limit && size < U32Limit
    requires h[72..80] == LeBytes(lba, 8)
    requires h[80..84] == LeBytes(count, 4)
    requires h[84..88] == LeBytes(size, 4)
    ensures ParseGptHeader(h) == Some(GptHeader(lba, count, size))
  {
    LeFieldOfEncoded(h, 72, 8, lba);
    LeFieldOfEncoded(h, 80, 4, count);
    LeFieldOfEncoded(h, 84, 4, size);
  }

  /** Byte offset of entry `j`: the entry array's LBA times the sector size,
      plus j entry sizes (each read follows the previous one). */
  function EntryOffset(sectorSize: nat, h: GptHeader, j: nat): nat {
    h.entriesLba * sectorSize + j * h.entrySize
  }

  /** The bytes read for entry `j`: at most one entry size, fewer at the end
      of the image. */
  function EntryData(image: seq<Byte>, sectorSize: nat, h: GptHeader, j: nat): seq<Byte> {
    Read(image, EntryOffset(sectorSize, h, j), h.entrySize)
  }

  /** An entry is skipped when its type GUID (bytes 0..16) is all zero or its
      first LBA (bytes 32..40) is 0. */
  predicate IsUnusedEntry(data: seq<Byte>)
    requires |data| >= 128
  {
    AllZero(data[..16]) || U64(data, 32) == 0
  }

  /** The 36 UTF-16 code units of the name field, bytes 56..128. */
  function NameUnits(data: seq<Byte>): (us: seq<Utf16.Unit>)
    requires |data| >= 128
    ensures |us| == 36
  {
    seq(36, k requires 0 <= k < 36 => U16(data, 56 + 2 * k))
  }

  /** The partition name: bytes 56..128 decoded as UTF-16LE ignoring errors,
      NULs stripped from both ends. */
  function EntryName(data: seq<Byte>): string
    requires |data| >= 128
  {
    Utf16.StripNul(Utf16.Decode(NameUnits(data)))
  }

  /** The name depends on the first 128 bytes of the entry only: a longer
      entry (entry size above 128) decodes to the same name. */
  lemma EntryNameReadsFirst128(data: seq<Byte>)
    requires |data| >= 128
    ensures EntryName(data) == EntryName(data[..128])
  {
    var front := data[..128];
    var us := NameUnits(data);
    var vs := NameUnits(front);
    forall k | 0 <= k < 36
      ensures us[k] == vs[k]
    {
      assert data[56 + 2 * k .. 58 + 2 * k] == front[56 + 2 * k .. 58 + 2 * k];
    }
    assert us == vs;
  }

  /** A GPT partition record spanning LBAs `first` to `last` inclusive:
      type code 0, never active. */
  function LbaRangeEntry(number: int, typeName: string, first: int, last: int, sectorSize: nat,
                         guid: string, name: string, attributes: int): PartitionEntry
  {
    var count := last - first + 1;
    PartitionEntry(
      number := number,
      typeName := typeName,
      typeCode := 0,
      startSector := first,
      sizeSectors := count,
      endSector := last,
      sizeBytes := SizeInBytes(count, sectorSize),
      guid := guid,
      name := name,
      attributes := attributes,
      isActive := false)
  }

  /** The record for a used entry: first and last LBA at 32 and 40,
      attributes at 48, the type GUID's description, the unique GUID
      (bytes 16..32) as lower-case hex and the decoded name. */
  function GptRecord(data: seq<Byte>, sectorSize: nat, number: int): PartitionEntry
    requires |data| >= 128
  {
    LbaRangeEntry(number, GptTypeName(data[..16]), U64(data, 32), U64(data, 40), sectorSize,
                  Hex(data[16..32], false), EntryName(data), U64(data, 48))
  }

  /** The entries the loop over i..entryCount-1 turns into records, by
      index: it stops at the first read shorter than 128 bytes and skips
      unused entries. */
  function GptWalk(image: seq<Byte>, sectorSize: nat, h: GptHeader, i: nat): (js: seq<nat>)
    requires i <= h.entryCount
    decreases h.entryCount - i
    ensures |js| <= h.entryCount - i
    ensures forall k :: 0 <= k < |js| ==>
      |EntryData(image, sectorSize, h, js[k])| >= 128 && !IsUnusedEntry(EntryData(image, sectorSize, h, js[k]))
  {
    if i == h.entryCount then []
    else
      var data := EntryData(image, sectorSize, h, i);
      if |data| < 128 then []
      else if IsUnusedEntry(data) then GptWalk(image, sectorSize, h, i + 1)
      else [i] + GptWalk(image, sectorSize, h, i + 1)
  }

  /** The partitions of a GPT disk: the header at byte offset sectorSize (one
      sector read), then one record per entry the walk keeps, numbered from 1
      in walk order (partition_num counts the records appended). */
  function DecodeGpt(image: seq<Byte>, sectorSize: nat): (r: seq<PartitionEntry>)
    ensures forall k :: 0 <= k < |r| ==> r[k].number == k + 1
  {
    match ParseGptHeader(Read(image, sectorSize, sectorSize))
    case None => []
    case Some(h) =>
      GptRecords(image, sectorSize, h, GptWalk(image, sectorSize, h, 0))
  }

  /** The records of the given entries, numbered from 1 in order. */
  function GptRecords(image: seq<Byte>, sectorSize: nat, h: GptHeader, js: seq<nat>): (r: seq<PartitionEntry>)
    requires forall k :: 0 <= k < |js| ==> |EntryData(image, sectorSize, h, js[k])| >= 128
    ensures |r| == |js|
  {
    seq(|js|, k requires 0 <= k < |js| =>
      GptRecord(EntryData(image, sectorSize, h, js[k]), sectorSize, k + 1))
  }

  /** Where the walk from entry i stops: the first entry whose read is
      shorter than 128 bytes, or the entry count. */
  function FirstShortEntry(image: seq<Byte>, sectorSize: nat, h: GptHeader, i: nat): (n: nat)
    requires i <= h.entryCount
    decreases h.entryCount - i
    ensures i <= n <= h.entryCount
    ensures forall j :: i <= j < n ==> |EntryData(image, sectorSize, h, j)| >= 128
    ensures n < h.entryCount ==> |EntryData(image, sectorSize, h, n)| < 128
  {
    if i == h.entryCount || |EntryData(image, sectorSize, h, i)| < 128 then i
    else FirstShortEntry(image, sectorSize, h, i + 1)
  }

  /** The indices j in i..n-1 with used(j), in increasing order. */
  function Selected(used: nat -> bool, i: nat, n: nat): (js: seq<nat>)
    decreases n - i
    ensures forall k :: 0 <= k < |js| ==> i <= js[k] < n && used(js[k])
  {
    if i >= n then []
    else if used(i) then [i] + Selected(used, i + 1, n)
    else Selected(used, i + 1, n)
  }

  /** A selection lists its indices in increasing order. */
  lemma {:induction false} SelectedIncreasing(used: nat -> bool, i: nat, n: nat)
    decreases n - i
    ensures forall k, l :: 0 <= k < l < |Selected(used, i, n)| ==>
      Selected(used, i, n)[k] < Selected(used, i, n)[l]
  {
    if i < n {
      SelectedIncreasing(used, i + 1, n);
      var js := Selected(used, i, n);
      var rest := Selected(used, i + 1, n);
      if used(i) {
        assert js == [i] + rest;
        forall k, l | 0 <= k < l < |js| ensures js[k] < js[l] {
          assert js[l] == rest[l - 1] >= i + 1;
          if k > 0 {
            assert js[k] == rest[k - 1];
          }
        }
      } else {
        assert js == rest;
      }
    }
  }

  /** A selection lists every index of the range that satisfies `used`. */
  lemma {:induction false} SelectedComplete(used: nat -> bool, i: nat, n: nat)
    decreases n - i
    ensures forall j :: i <= j < n && used(j) ==> j in Selected(used, i, n)
  {
    if i < n {
      SelectedComplete(used, i + 1, n);
    }
  }

  /** At least 128 bytes of entry j are read, and it is in use. */
  predicate IsUsedAt(image: seq<Byte>, sectorSize: nat, h: GptHeader, j: nat) {
    |EntryData(image, sectorSize, h, j)| >= 128 && !IsUnusedEntry(EntryData(image, sectorSize, h, j))
  }

  /** The reference list: the entries among i..n-1 of which at least 128
      bytes are read and that are in use, in increasing order. */
  function UsedEntries(image: seq<Byte>, sectorSize: nat, h: GptHeader, i: nat, n: nat): (js: seq<nat>)
    ensures forall k :: 0 <= k < |js| ==> i <= js[k] < n && IsUsedAt(image, sectorSize, h, js[k])
  {
    Selected((j: nat) => IsUsedAt(image, sectorSize, h, j), i, n)
  }

  /** One step of the walk and of the reference list at a used entry read
      with at least 128 bytes: it comes first in both, and the walk stops at
      the same entry. */
  lemma UsedEntriesTakes(image: seq<Byte>, sectorSize: nat, h: GptHeader, i: nat)
    requires i < h.entryCount && |EntryData(image, sectorSize, h, i)| >= 128
    requires !IsUnusedEntry(EntryData(image, sectorSize, h, i))
    ensures GptWalk(image, sectorSize, h, i) == [i] + GptWalk(image, sectorSize, h, i + 1)
    ensures var n := FirstShortEntry(image, sectorSize, h, i);
      n == FirstShortEntry(image, sectorSize, h, i + 1)
      && UsedEntries(image, sectorSize, h, i, n) == [i] + UsedEntries(image, sectorSize, h, i + 1, n)
  {
  }

  /** One step at an unused entry read with at least 128 bytes: neither the
      walk nor the reference list keeps it. */
  lemma UsedEntriesSkips(image: seq<Byte>, sectorSize: nat, h: GptHeader, i: nat)
    requires i < h.entryCount && |EntryData(image, sectorSize, h, i)| >= 128
    requires IsUnusedEntry(EntryData(image, sectorSize, h, i))
    ensures GptWalk(image, sectorSize, h, i) == GptWalk(image, sectorSize, h, i + 1)
    ensures var n := FirstShortEntry(image, sectorSize, h, i);
      n == FirstShortEntry(image, sectorSize, h, i + 1)
      && UsedEntries(image, sectorSize, h, i, n) == UsedEntries(image, sectorSize, h, i + 1, n)
  {
  }

  /** The walk from entry i keeps exactly the used entries before the first
      short read, in order. */
  lemma {:induction false} GptWalkIsUsedEntries(image: seq<Byte>, sectorSize: nat, h: GptHeader, i: nat)
    requires i <= h.entryCount
    decreases h.entryCount - i
    ensures GptWalk(image, sectorSize, h, i)
      == UsedEntries(image, sectorSize, h, i, FirstShortEntry(image, sectorSize, h, i))
  {
    if i < h.entryCount && |EntryData(image, sectorSize, h, i)| >= 128 {
      GptWalkIsUsedEntries(image, sectorSize, h, i + 1);
      if IsUnusedEntry(EntryData(image, sectorSize, h, i)) {
        UsedEntriesSkips(image, sectorSize, h, i);
      } else {
        UsedEntriesTakes(image, sectorSize, h, i);
      }
    } else {
      assert FirstShortEntry(image, sectorSize, h, i) == i;
    }
  }

  /** The decoded GPT partitions, read through the header: the records, in
      order and numbered from 1, of the used entries before the first short
      read. */
  lemma GptDecodeIsUsedEntries(image: seq<Byte>, sectorSize: nat, h: GptHeader)
    requires ParseGptHeader(Read(image, sectorSize, sectorSize)) == Some(h)
    ensures DecodeGpt(image, sectorSize)
      == GptRecords(image, sectorSize, h, UsedEntries(image, sectorSize, h, 0, FirstShortEntry(image, sectorSize, h, 0)))
  {
    GptWalkIsUsedEntries(image, sectorSize, h, 0);
  }

  /** A header read shorter than 92 bytes yields no partitions. */
  lemma GptShortHeaderYieldsNothing(image: seq<Byte>, sectorSize: nat)
    requires |Read(image, sectorSize, sectorSize)| < 92
    ensures DecodeGpt(image, sectorSize) == []
  {
  }

  /** An entry size below 128 makes the first read short, so there are no
      partitions, whatever the entry count. */
  lemma GptSmallEntrySizeYieldsNothing(image: seq<Byte>, sectorSize: nat, h: GptHeader)
    requires h.entrySize < 128
    ensures GptWalk(image, sectorSize, h, 0) == []
  {
  }

  /** The decoded GPT partitions number at most the declared entry count. */
  lemma GptAtMostEntryCount(image: seq<Byte>, sectorSize: nat, h: GptHeader)
    requires ParseGptHeader(Read(image, sectorSize, sectorSize)) == Some(h)
    ensures |DecodeGpt(image, sectorSize)| <= h.entryCount
  {
  }

  /** The numeric fields of the record built from 128 entry bytes that lie
      at offset `off` of the image: first and last LBA at off + 32 and
      off + 40 (the first one positive), attributes at off + 48, type code 0,
      inactive. */
  lemma GptRecordAt(image: seq<Byte>, off: nat, data: seq<Byte>, sectorSize: nat, number: int)
    requires |data| >= 128 && off + 128 <= |image|
    requires data[..128] == image[off .. off + 128]
    requires !IsUnusedEntry(data)
    ensures var e := GptRecord(data, sectorSize, number);
      && e.number == number
      && e.startSector == U64(image, off + 32) > 0
      && e.endSector == U64(image, off + 40)
      && e.attributes == U64(image, off + 48) < U64Limit
      && e.typeCode == 0 && !e.isActive
  {
    SubRange(data, image, off, 128, 32, 40);
    SubRange(data, image, off, 128, 40, 48);
    SubRange(data, image, off, 128, 48, 56);
  }

  /** A GPT record's size is last - first + 1 sectors (not necessarily
      positive) of sectorSize bytes each; it ends before it starts exactly
      when that size is not positive. */
  lemma LbaRangeEntrySize(number: int, typeName: string, first: int, last: int, sectorSize: nat,
                          guid: string, name: string, attributes: int)
    ensures var e := LbaRangeEntry(number, typeName, first, last, sectorSize, guid, name, attributes);
      && e.startSector == first && e.endSector == last
      && e.sizeSectors == last - first + 1
      && e.sizeBytes == e.sizeSectors * sectorSize
      && (e.sizeSectors <= 0 <==> last < first)
  {
    SizeInBytesIsProduct(last - first + 1, sectorSize);
  }

  /** The text fields of the same record: the description of the type GUID
      at off (not all zero), and the unique GUID at off + 16 as lower-case
      hexadecimal. */
  lemma GptRecordTextsAt(image: seq<Byte>, off: nat, data: seq<Byte>, sectorSize: nat, number: int)
    requires |data| >= 128 && off + 128 <= |image|
    requires data[..128] == image[off .. off + 128]
    requires !IsUnusedEntry(data)
    ensures var e := GptRecord(data, sectorSize, number);
      && !AllZero(image[off .. off + 16])
      && e.typeName == GptTypeName(image[off .. off + 16])
      && e.guid == Hex(image[off + 16 .. off + 32], false)
  {
    SubRange(data, image, off, 128, 0, 16);
    SubRange(data, image, off, 128, 16, 32);
    assert data[..16] == image[off .. off + 16];
  }

  /** The record of used entry j, in terms of the image at the entry's
      offset. */
  lemma GptRecordFields(image: seq<Byte>, sectorSize: nat, h: GptHeader, j: nat, number: int)
    requires |EntryData(image, sectorSize, h, j)| >= 128
    requires !IsUnusedEntry(EntryData(image, sectorSize, h, j))
    ensures EntryOffset(sectorSize, h, j) + 128 <= |image|
    ensures var off := EntryOffset(sectorSize, h, j);
      var e := GptRecord(EntryData(image, sectorSize, h, j), sectorSize, number);
      && e.startSector == U64(image, off + 32) > 0
      && e.endSector == U64(image, off + 40)
      && e.attributes == U64(image, off + 48)
      && !AllZero(image[off .. off + 16])
      && e.typeName == GptTypeName(image[off .. off + 16])
      && e.guid == Hex(image[off + 16 .. off + 32], false)
    ensures var off := EntryOffset(sectorSize, h, j);
      var e := GptRecord(EntryData(image, sectorSize, h, j), sectorSize, number);
      && e.name == EntryName(image[off .. off + 128])
      && e.sizeSectors == e.endSector - e.startSector + 1
      && e.sizeBytes == e.sizeSectors * sectorSize
  {
    var off := EntryOffset(sectorSize, h, j);
    var data := EntryData(image, sectorSize, h, j);
    EntryDataInside(image, sectorSize, h, j);
    GptRecordAt(image, off, data, sectorSize, number);
    GptRecordTextsAt(image, off, data, sectorSize, number);
    EntryNameReadsFirst128(data);
    LbaRangeEntrySize(number, GptTypeName(data[..16]), U64(data, 32), U64(data, 40), sectorSize,
                      Hex(data[16..32], false), EntryName(data), U64(data, 48));
  }

  /** An entry read with at least 128 bytes starts with the image's 128
      bytes at the entry's offset. */
  lemma EntryDataInside(image: seq<Byte>, sectorSize: nat, h: GptHeader, j: nat)
    requires |EntryData(image, sectorSize, h, j)| >= 128
    ensures var off := EntryOffset(sectorSize, h, j);
      off + 128 <= |image| && EntryData(image, sectorSize, h, j)[..128] == image[off .. off + 128]
  {
  }

  /** Nothing orders first and last LBA: a GPT record has a non-positive
      size exactly when its last LBA lies before its first. */
  lemma GptNonPositiveSizeIffLastBeforeFirst(image: seq<Byte>, sectorSize: nat, e: PartitionEntry)
    requires e in DecodeGpt(image, sectorSize)
    ensures e.sizeSectors <= 0 <==> e.endSector < e.startSector
  {
    var r := DecodeGpt(image, sectorSize);
    var k :| 0 <= k < |r| && r[k] == e;
    match ParseGptHeader(Read(image, sectorSize, sectorSize))
    case None =>
    case Some(h) =>
      GptRecordsSize(image, sectorSize, h, GptWalk(image, sectorSize, h, 0), k);
  }

  /** A GPT record's size in sectors is not positive exactly when its last
      LBA lies before its first. */
  lemma GptRecordSize(data: seq<Byte>, sectorSize: nat, number: int)
    requires |data| >= 128
    ensures var e := GptRecord(data, sectorSize, number);
      e.sizeSectors <= 0 <==> e.endSector < e.startSector
  {
    LbaRangeEntrySize(number, GptTypeName(data[..16]), U64(data, 32), U64(data, 40), sectorSize,
                      Hex(data[16..32], false), EntryName(data), U64(data, 48));
  }

  /** The same for the k-th record of a list of entries. */
  lemma GptRecordsSize(image: seq<Byte>, sectorSize: nat, h: GptHeader, js: seq<nat>, k: nat)
    requires forall k :: 0 <= k < |js| ==> |EntryData(image, sectorSize, h, js[k])| >= 128
    requires k < |js|
    ensures var e := GptRecords(image, sectorSize, h, js)[k];
      e.sizeSectors <= 0 <==> e.endSector < e.startSector
  {
    var data := EntryData(image, sectorSize, h, js[k]);
    var f := k requires 0 <= k < |js| => GptRecord(EntryData(image, sectorSize, h, js[k]), sectorSize, k + 1);
    assert GptRecords(image, sectorSize, h, js) == seq(|js|, f);
    assert f(k) == GptRecord(data, sectorSize, k + 1);
    GptRecordSize(data, sectorSize, k + 1);
  }

  // ---------------------------------------------------------------------
  // analyze (DiskAnalyzer.analyze)
  // ---------------------------------------------------------------------

  /** File offsets and read sizes are signed 64-bit: reading this many bytes
      or more, or seeking this far or further, raises. */
  const OffsetLimit: nat := 0x8000_0000_0000_0000

  /** The GPT decoder's seek to the entry array (entry LBA times sector size)
      raises: the header is complete and the offset is too large. */
  predicate EntrySeekOverflows(image: seq<Byte>, sectorSize: nat) {
    match ParseGptHeader(Read(image, sectorSize, sectorSize))
    case None => false
    case Some(h) => h.entriesLba * sectorSize >= OffsetLimit
  }

  /** DiskAnalyzer.analyze without the printing: read one sector, fail if
      it is short, detect, then run the decoder the kind selects; Unknown
      runs no decoder and fails. Any exception raised on the way (an index
      past the sector, an oversized read or seek) makes it fail too. */
  function Analyze(image: seq<Byte>, sectorSize: nat): (r: Result<DiskReport, Failure>)
    ensures sectorSize >= OffsetLimit ==> r == Err(OffsetOverflow)
    ensures r == Err(TooSmall) <==> sectorSize < OffsetLimit && |image| < sectorSize
    ensures r.Ok? ==>
      r.value.kind != Unknown && r.value.diskSize == |image| && r.value.sectorSize == sectorSize
    ensures r.Ok? ==> HasBootSignature(image[..sectorSize]) == r.value.bootSignature
    ensures r.Ok? && r.value.kind == Mbr ==>
      r.value.partitions == DecodeMbr(image[..sectorSize], sectorSize)
    ensures r.Ok? && r.value.kind == Gpt ==>
      !EntrySeekOverflows(image, sectorSize) && r.value.partitions == DecodeGpt(image, sectorSize)
  {
    if sectorSize >= OffsetLimit then Err(OffsetOverflow)
    else
      var sector0 := Read(image, 0, sectorSize);
      if |sector0| < sectorSize then Err(TooSmall)
      else
        match DetectTableType(sector0)
        case Err(e) => Err(e)
        case Ok(d) =>
          if d.kind == Mbr then
            Ok(DiskReport(Mbr, d.bootSignature, |image|, sectorSize, DecodeMbr(sector0, sectorSize)))
          else if d.kind == Gpt then
            if EntrySeekOverflows(image, sectorSize) then Err(OffsetOverflow)
            else Ok(DiskReport(Gpt, d.bootSignature, |image|, sectorSize, DecodeGpt(image, sectorSize)))
          else Err(Unrecognized)
  }

  /** A sector of 1 to 510 bytes is too short for the signature test at byte
      510: when the image holds such a sector, analyze fails with the index
      error. */
  lemma AnalyzeShortSectorFaults(image: seq<Byte>, sectorSize: nat)
    requires 1 <= sectorSize <= 510 && |image| >= sectorSize
    ensures Analyze(image, sectorSize) == Err(IndexFault)
  {
  }

  /** With 512-byte sectors and no 55 AA signature there is nothing after the
      sector to hold "EFI PART", so the result is always Unrecognized. */
  lemma Sector512WithoutSignatureIsUnrecognized(image: seq<Byte>)
    requires |image| >= 512 && !HasBootSignature(image[..512])
    ensures Analyze(image, 512) == Err(Unrecognized)
  {
    var sector0 := image[..512];
    assert Read(image, 0, 512) == sector0;
    assert Read(sector0, 0x200, 8) == [];
  }

  /** The outcome of analyze, case by case on the first sector. */
  lemma AnalyzeCases(image: seq<Byte>, sectorSize: nat)
    requires 512 <= sectorSize < OffsetLimit && |image| >= sectorSize
    ensures var s := image[..sectorSize];
      var gpt := if EntrySeekOverflows(image, sectorSize) then Err(OffsetOverflow)
        else Ok(DiskReport(Gpt, HasBootSignature(s), |image|, sectorSize, DecodeGpt(image, sectorSize)));
      && (HasBootSignature(s) && s[450] != ProtectiveType ==>
            Analyze(image, sectorSize)
              == Ok(DiskReport(Mbr, true, |image|, sectorSize, DecodeMbr(s, sectorSize))))
      && (HasBootSignature(s) && s[450] == ProtectiveType ==> Analyze(image, sectorSize) == gpt)
      && (!HasBootSignature(s) && Read(s, 0x200, 8) == EfiPart ==> Analyze(image, sectorSize) == gpt)
      && (!HasBootSignature(s) && Read(s, 0x200, 8) != EfiPart ==>
            Analyze(image, sectorSize) == Err(Unrecognized))
  {
    var s := image[..sectorSize];
    assert Read(image, 0, sectorSize) == s;
  }
}

=== FILE: dump_analyzer.dfy ===
/** The MBR-only decoder of dump_analyzer.py: parse_partition_entry and
    analyze_mbr as pure functions over the first sector. The missing-signature
    warning becomes a flag on the result. */
module DumpAnalyzer {
  import opened Results
  import opened Bytes
  import DiskAnalyzer

  /** The dictionary parse_partition_entry returns: boot flag (byte 0),
      partition type (byte 4), first sector and sector count (little-endian
      u32 at 8 and 12). */
  datatype SlotRecord = SlotRecord(bootFlag: Byte, partType: Byte, firstSector: nat, totalSectors: nat)

  /** The exception a too-short input raises: an IndexError on a missing
      byte, or struct.error on a slice too short to unpack. */
  datatype DumpFailure = ShortInput

  /** What analyze_mbr produces: the four slot records, and whether it
      printed the missing-signature warning. */
  datatype MbrDump = MbrDump(signatureMissing: bool, partitions: seq<SlotRecord>)

  /** The boot signature value, bytes 55 AA read as a little-endian u16. */
  const BootSignature: nat := 0xAA55

  /** parse_partition_entry: fails exactly when the entry is too short for
      its last field (bytes 8..16); only bytes 0, 4 and 8..16 are read. */
  function ParsePartitionEntry(entry: seq<Byte>): (r: Result<SlotRecord, DumpFailure>)
    ensures r.Ok? <==> |entry| >= 16
    ensures r.Ok? ==> r.value.firstSector < U32Limit && r.value.totalSectors < U32Limit
  {
    if |entry| < 16 then Err(ShortInput)
    else Ok(SlotRecord(entry[0], entry[4], U32(entry, 8), U32(entry, 12)))
  }

  /** The 16 slot bytes that store a record: the inverse of
      ParsePartitionEntry on the bytes it reads (the CHS bytes are written
      as zero). */
  function EncodeSlot(s: SlotRecord): (entry: seq<Byte>)
    requires s.firstSector < U32Limit && s.totalSectors < U32Limit
    ensures |entry| == 16
  {
    [s.bootFlag, 0, 0, 0, s.partType, 0, 0, 0]
      + LeBytes(s.firstSector, 4) + LeBytes(s.totalSectors, 4)
  }

  /** Parsing an encoded slot gives the record back. */
  lemma ParseEncodeSlot(s: SlotRecord)
    requires s.firstSector < U32Limit && s.totalSectors < U32Limit
    ensures ParsePartitionEntry(EncodeSlot(s)) == Ok(s)
  {
    var entry := EncodeSlot(s);
    assert entry[8..12] == LeBytes(s.firstSector, 4);
    assert entry[12..16] == LeBytes(s.totalSectors, 4);
    LeFieldOfEncoded(entry, 8, 4, s.firstSector);
    LeFieldOfEncoded(entry, 12, 4, s.totalSectors);
  }

  /** Encoding a parsed slot restores every byte the parse read; the other
      bytes (CHS addresses) are not part of the record. */
  lemma EncodeParsedSlot(entry: seq<Byte>)
    requires |entry| >= 16
    ensures var s := ParsePartitionEntry(entry).value;
      var back := EncodeSlot(s);
      back[0] == entry[0] && back[4] == entry[4] && back[8..16] == entry[8..16]
  {
    var s := ParsePartitionEntry(entry).value;
    var back := EncodeSlot(s);
    LeValueRoundTrip(entry[8..12]);
    LeValueRoundTrip(entry[12..16]);
    assert back[8..12] == LeBytes(s.firstSector, 4);
    assert back[12..16] == LeBytes(s.totalSectors, 4);
    assert entry[8..16] == entry[8..12] + entry[12..16];
    assert back[8..16] == back[8..12] + back[12..16];
  }

  /** The slice mbr[446 + 16i : 446 + 16(i + 1)] of slot i. */
  function DumpSlot(mbr: seq<Byte>, i: nat): seq<Byte>
    requires |mbr| >= 512 && i < 4
  {
    mbr[446 + 16 * i .. 446 + 16 * (i + 1)]
  }

  /** The loop of analyze_mbr from slot i on: every slot, empty or not,
      appended in order. */
  function DumpSlots(mbr: seq<Byte>, i: nat): (r: seq<SlotRecord>)
    requires |mbr| >= 512 && i <= 4
    decreases 4 - i
    ensures |r| == 4 - i
  {
    if i == 4 then []
    else [ParsePartitionEntry(DumpSlot(mbr, i)).value] + DumpSlots(mbr, i + 1)
  }

  /** analyze_mbr: unpacking the signature needs bytes 510..512, so a sector
      shorter than 512 bytes fails; otherwise the four slots are parsed and a
      signature other than AA55 only raises the warning flag. */
  function AnalyzeMbr(mbr: seq<Byte>): (r: Result<MbrDump, DumpFailure>)
    ensures r.Ok? <==> |mbr| >= 512
    ensures r.Ok? ==> |r.value.partitions| == 4
    ensures r.Ok? ==> (r.value.signatureMissing <==> U16(mbr, 510) != BootSignature)
  {
    if |mbr| < 512 then Err(ShortInput)
    else Ok(MbrDump(U16(mbr, 510) != BootSignature, DumpSlots(mbr, 0)))
  }

  /** Record k of the loop from slot i is the parse of slot i + k. */
  lemma {:induction false} DumpSlotsAt(mbr: seq<Byte>, i: nat, k: nat)
    requires |mbr| >= 512 && i + k < 4
    decreases k
    ensures Ok(DumpSlots(mbr, i)[k]) == ParsePartitionEntry(DumpSlot(mbr, i + k))
  {
    if k > 0 {
      DumpSlotsAt(mbr, i + 1, k - 1);
      assert DumpSlots(mbr, i)[k] == DumpSlots(mbr, i + 1)[k - 1];
    }
  }

  /** analyze_mbr returns exactly four records in slot order, record i being
      the parse of bytes 446 + 16i .. 446 + 16(i + 1); empty slots are kept. */
  lemma AnalyzeMbrSlots(mbr: seq<Byte>, i: nat)
    requires |mbr| >= 512 && i < 4
    ensures AnalyzeMbr(mbr).Ok?
    ensures Ok(AnalyzeMbr(mbr).value.partitions[i])
      == ParsePartitionEntry(mbr[446 + 16 * i .. 446 + 16 * (i + 1)])
  {
    DumpSlotsAt(mbr, 0, i);
  }

  /** The signature flag reads the bytes 55 AA: the little-endian u16 at 510
      is AA55 exactly when byte 510 is 55 and byte 511 is AA. */
  lemma SignatureBytes(mbr: seq<Byte>)
    requires |mbr| >= 512
    ensures U16(mbr, 510) == BootSignature <==> mbr[510] == 0x55 && mbr[511] == 0xAA
  {
    var bs := mbr[510..512];
    assert LeValue(bs) == bs[0] + 256 * LeValue(bs[1..]);
    assert LeValue(bs[1..]) == bs[1] + 256 * LeValue(bs[1..][1..]);
    assert bs[1..][1..] == [];
  }

  /** The warning changes nothing: two sectors that differ only in the
      signature bytes yield the same records. */
  lemma {:induction false} SignatureDoesNotChangeRecords(a: seq<Byte>, b: seq<Byte>)
    requires |a| == |b| >= 512
    requires a[..510] == b[..510] && a[512..] == b[512..]
    ensures AnalyzeMbr(a).value.partitions == AnalyzeMbr(b).value.partitions
  {
    forall i | 0 <= i < 4
      ensures DumpSlot(a, i) == DumpSlot(b, i)
    {
      forall k | 0 <= k < 16
        ensures DumpSlot(a, i)[k] == DumpSlot(b, i)[k]
      {
        var p := 446 + 16 * i + k;
        assert a[p] == a[..510][p] && b[p] == b[..510][p];
      }
    }
    assert DumpSlots(a, 3) == DumpSlots(b, 3);
    assert DumpSlots(a, 2) == DumpSlots(b, 2);
    assert DumpSlots(a, 1) == DumpSlots(b, 1);
    assert DumpSlots(a, 0) == DumpSlots(b, 0);
  }

  /** The two decoders agree on a slot: analyze_mbr's parse and _analyze_mbr's
      record of the same 16 bytes carry the same type, start, count and boot
      status. */
  lemma SlotDecodersAgree(slot: seq<Byte>, i: nat, sectorSize: nat)
    requires |slot| >= 16
    ensures var s := ParsePartitionEntry(slot).value;
      var e := DiskAnalyzer.MbrRecord(slot, i, sectorSize);
      && e.typeCode == s.partType
      && e.startSector == s.firstSector
      && e.sizeSectors == s.totalSectors
      && (e.isActive <==> s.bootFlag == DiskAnalyzer.ActiveStatus)
      && (DiskAnalyzer.IsEmptySlot(slot) <==> s.partType == 0 && s.firstSector == 0)
  {
  }

  /** Slot i of the dump is slot i of the MBR partition table. */
  lemma DumpSlotIsMbrSlot(mbr: seq<Byte>, i: nat)
    requires |mbr| >= 512 && i < 4
    ensures DumpSlot(mbr, i) == DiskAnalyzer.MbrSlot(mbr, i)
  {
  }

  /** A kept slot's _analyze_mbr record carries the status, type, start and
      count of the analyze_mbr record of the same slot, and that record is
      not empty. */
  lemma KeptSlotMatchesDump(mbr: seq<Byte>, j: nat, sectorSize: nat)
    requires |mbr| >= 512 && j < 4
    requires DiskAnalyzer.SlotKept(mbr, j)
    ensures var s := AnalyzeMbr(mbr).value.partitions[j];
      var e := DiskAnalyzer.MbrRecord(DiskAnalyzer.MbrSlot(mbr, j), j, sectorSize);
      && e.typeCode == s.partType
      && e.startSector == s.firstSector
      && e.sizeSectors == s.totalSectors
      && (e.isActive <==> s.bootFlag == DiskAnalyzer.ActiveStatus)
      && !(s.partType == 0 && s.firstSector == 0)
  {
    var slot := DiskAnalyzer.MbrSlot(mbr, j);
    AnalyzeMbrSlots(mbr, j);
    DumpSlotIsMbrSlot(mbr, j);
    assert AnalyzeMbr(mbr).value.partitions[j] == ParsePartitionEntry(slot).value;
    SlotDecodersAgree(slot, j, sectorSize);
  }

  /** Every record _analyze_mbr keeps carries the status, type, start and
      count of the analyze_mbr record of the same slot. */
  lemma KeptRecordsMatchDump(mbr: seq<Byte>, sectorSize: nat, e: DiskAnalyzer.PartitionEntry)
    requires |mbr| >= 512
    requires e in DiskAnalyzer.DecodeMbr(mbr, sectorSize)
    ensures 1 <= e.number <= 4
    ensures var s := AnalyzeMbr(mbr).value.partitions[e.number - 1];
      && e.typeCode == s.partType
      && e.startSector == s.firstSector
      && e.sizeSectors == s.totalSectors
      && (e.isActive <==> s.bootFlag == DiskAnalyzer.ActiveStatus)
      && !(s.partType == 0 && s.firstSector == 0)
  {
    DiskAnalyzer.MbrDecodedRecord(mbr, sectorSize, e);
    KeptSlotMatchesDump(mbr, e.number - 1, sectorSize);
  }

  /** Conversely, _analyze_mbr keeps a record for exactly the analyze_mbr
      records that are not empty (type 0 with first sector 0). */
  lemma DumpRecordKeptIffNotEmpty(mbr: seq<Byte>, sectorSize: nat, i: nat)
    requires |mbr| >= 512 && i < 4
    ensures var s := AnalyzeMbr(mbr).value.partitions[i];
      (exists e :: e in DiskAnalyzer.DecodeMbr(mbr, sectorSize) && e.number == i + 1)
        <==> !(s.partType == 0 && s.firstSector == 0)
  {
    AnalyzeMbrSlots(mbr, i);
    DumpSlotIsMbrSlot(mbr, i);
    SlotDecodersAgree(DiskAnalyzer.MbrSlot(mbr, i), i, sectorSize);
    DiskAnalyzer.MbrSlotDecodedIffNotEmpty(mbr, sectorSize, i);
  }
}

=== FILE: human_size.dfy ===
/** The unit _bytes_to_human chooses for a byte count. The printed magnitude
    is a float with two decimals and is not modelled; the unit is. */
module HumanSize {

  const Units: seq<string> := ["B", "KB", "MB", "GB", "TB", "PB"]

  /** Index of the last unit, reached after five divisions. */
  const LastUnit: nat := 5

  function Pow1024(k: nat): (r: nat)
    ensures r > 0
  {
    if k == 0 then 1 else 1024 * Pow1024(k - 1)
  }

  /** The count from which unit `k` gives way to the next one. */
  function Threshold(k: nat): nat {
    Pow1024(k + 1)
  }

  /** The loop of _bytes_to_human from unit `k` on: stop at the first unit in
      which the count divided by 1024^k is below 1024, or at PB. Dividing by
      1024 is exact in binary floating point and every bound 1024^(k+1)
      compared against is below 2^53, so comparing the integers gives the
      same unit as the source's float comparison. */
  function UnitFrom(n: int, k: nat): (u: nat)
    requires k <= LastUnit
    decreases LastUnit - k
    ensures k <= u <= LastUnit
    ensures u < LastUnit ==> n < Threshold(u)
    ensures forall j :: k <= j < u ==> n >= Threshold(j)
  {
    if k == LastUnit || n < Threshold(k) then k else UnitFrom(n, k + 1)
  }

  /** The unit index of a byte count: the least k below 5 with
      n < 1024^(k+1), or 5 (PB) when there is none. */
  function UnitIndex(n: int): (u: nat)
    ensures u <= LastUnit
    ensures u < LastUnit ==> n < Threshold(u)
    ensures forall j :: 0 <= j < u ==> n >= Threshold(j)
  {
    UnitFrom(n, 0)
  }

  function UnitName(n: int): string {
    Units[UnitIndex(n)]
  }

  /** The unit is monotone in the count: a larger count never gets a smaller
      unit. */
  lemma UnitIndexMonotone(a: int, b: int)
    requires a <= b
    ensures UnitIndex(a) <= UnitIndex(b)
  {
  }

  /** A count of 1536 bytes is shown in KB, a count of 2^30 in GB. */
  lemma UnitExamples()
    ensures UnitName(1536) == "KB"
    ensures UnitName(0x4000_0000) == "GB"
  {
    assert Threshold(0) == 0x400;
    assert Threshold(1) == 0x10_0000;
    assert Threshold(2) == 0x4000_0000;
    assert Threshold(3) == 0x100_0000_0000;
  }
}

=== FILE: results.dfy ===
/** Outcome types shared by the decoders: an optional value and a value-or-error. */
module Results {

  /** A value that may be absent (a skipped slot, a header too short to parse). */
  datatype Option<+T> = None | Some(value: T)

  /** The value of an operation that either succeeds or stops with an error. */
  datatype Result<+T, +E> = Ok(value: T) | Err(error: E)
}

=== FILE: utf16.dfy ===
/** The partition-name text of a GPT entry: UTF-16 little-endian code units
    decoded the way Python's 'utf-16le' codec does with errors='ignore', then
    stripped of NUL characters at both ends (str.strip('\x00')). */
module Utf16 {

  /** One 16-bit UTF-16 code unit. */
  type Unit = u: int | 0 <= u < 0x1_0000

  predicate IsHighSurrogate(u: int) {
    0xD800 <= u <= 0xDBFF
  }

  predicate IsLowSurrogate(u: int) {
    0xDC00 <= u <= 0xDFFF
  }

  /** The supplementary-plane character a high/low surrogate pair encodes. */
  function Combine(hi: Unit, lo: Unit): (c: char)
    requires IsHighSurrogate(hi) && IsLowSurrogate(lo)
    ensures 0x1_0000 <= c as int <= 0x10_FFFF
  {
    (0x1_0000 + (hi - 0xD800) * 0x400 + (lo - 0xDC00)) as char
  }

  /** Decoding with errors='ignore': a unit outside the surrogate range is a
      character; a high surrogate followed by a low one is a pair; any other
      surrogate unit is dropped on its own, and decoding resumes at the next
      unit (so a high surrogate followed by an ordinary unit loses only the
      high surrogate). */
  function Decode(us: seq<Unit>): (s: string)
    ensures |s| <= |us|
  {
    if |us| == 0 then ""
    else if IsHighSurrogate(us[0]) && |us| >= 2 && IsLowSurrogate(us[1]) then
      [Combine(us[0], us[1])] + Decode(us[2..])
    else if IsHighSurrogate(us[0]) || IsLowSurrogate(us[0]) then
      Decode(us[1..])
    else
      [us[0] as char] + Decode(us[1..])
  }

  /** The code units of one character: itself below U+10000, a surrogate pair
      above. */
  function EncodeChar(c: char): (us: seq<Unit>)
    ensures 1 <= |us| <= 2
  {
    var v := c as int;
    if v < 0x1_0000 then [v]
    else [0xD800 + (v - 0x1_0000) / 0x400, 0xDC00 + (v - 0x1_0000) % 0x400]
  }

  /** UTF-16 encoding of a string: the partner of Decode. */
  function Encode(s: string): (us: seq<Unit>)
    ensures |s| <= |us| <= 2 * |s|
  {
    if |s| == 0 then [] else EncodeChar(s[0]) + Encode(s[1..])
  }

  /** Decoding drops nothing from well-formed input: every string survives an
      encode/decode round trip. */
  lemma {:induction false} DecodeEncode(s: string)
    ensures Decode(Encode(s)) == s
  {
    if |s| > 0 {
      DecodeEncode(s[1..]);
      var c := s[0];
      var v := c as int;
      var us := Encode(s);
      assert us == EncodeChar(c) + Encode(s[1..]);
      if v < 0x1_0000 {
        assert !IsHighSurrogate(v) && !IsLowSurrogate(v);
        assert us[1..] == Encode(s[1..]);
      } else {
        var hi, lo := us[0], us[1];
        assert IsHighSurrogate(hi) && IsLowSurrogate(lo);
        assert Combine(hi, lo) as int == v;
        assert us[2..] == Encode(s[1..]);
      }
    }
  }

  /** Text of characters below U+10000 that are not surrogates decodes one
      character per unit. */
  lemma {:induction false} DecodeBasicPlane(us: seq<Unit>)
    requires forall k :: 0 <= k < |us| ==> !IsHighSurrogate(us[k]) && !IsLowSurrogate(us[k])
    ensures |Decode(us)| == |us|
    ensures forall k :: 0 <= k < |us| ==> Decode(us)[k] as int == us[k]
  {
    if |us| > 0 {
      DecodeBasicPlane(us[1..]);
    }
  }

  /** Removes leading NUL characters (the left half of str.strip('\x00')). */
  function TrimLeadingNul(s: string): (r: string)
    ensures |r| <= |s| && r == s[|s| - |r|..]
    ensures forall k :: 0 <= k < |s| - |r| ==> s[k] == '\0'
    ensures |r| > 0 ==> r[0] != '\0'
  {
    if |s| > 0 && s[0] == '\0' then TrimLeadingNul(s[1..]) else s
  }

  /** Removes trailing NUL characters (the right half of str.strip('\x00')). */
  function TrimTrailingNul(s: string): (r: string)
    ensures |r| <= |s| && r == s[..|r|]
    ensures forall k :: |r| <= k < |s| ==> s[k] == '\0'
    ensures |r| > 0 ==> r[|r| - 1] != '\0'
  {
    if |s| > 0 && s[|s| - 1] == '\0' then TrimTrailingNul(s[..|s| - 1]) else s
  }

  /** `r` sits at position `i` of `s` with only NUL characters around it. */
  predicate NulPadded(s: string, i: int, r: string) {
    && 0 <= i <= |s| - |r|
    && r == s[i .. i + |r|]
    && (forall k :: 0 <= k < i ==> s[k] == '\0')
    && (forall k :: i + |r| <= k < |s| ==> s[k] == '\0')
  }

  /** str.strip('\x00'): the longest infix of `s` that neither starts nor ends
      with NUL, everything cut off being NUL. */
  function StripNul(s: string): (r: string)
    ensures exists i :: NulPadded(s, i, r)
    ensures |r| > 0 ==> r[0] != '\0' && r[|r| - 1] != '\0'
  {
    var left := TrimLeadingNul(s);
    var r := TrimTrailingNul(left);
    var i := |s| - |left|;
    assert forall k :: i + |r| <= k < |s| ==> s[k] == left[k - i];
    assert NulPadded(s, i, r);
    r
  }
}
